=== FILE: README.md ===
# LocalAISlackBot, modelled in Dafny

LocalAISlackBot is a Slack bot that answers mentions and direct messages
through a local LLM. It keeps a short per-user memory, can search the web
(Serper) and can start image (ComfyUI) and music jobs. This project models
the stateful core of the bot and proves properties of it:

- the per-user chat memory, a map of bounded FIFOs (`chat_memory.dfy`);
- the `.env` reader and line editor (`env_service.dfy`);
- start-up configuration: required variables, defaults and the channel
  allow-list (`config.dfy`);
- the three tools and the flag or link list each keeps around its one HTTP
  call (`serper_web_search.dfy`, `music_generation_tool.dfy`,
  `comfy_tool.dfy`);
- the bot's start/stop state machine (`bot_manager.dfy`);
- the mention handler of the Slack service (`slack_bot_service.dfy`);
- the group, private and `/clear_memory` handlers (`group_chat.dfy`,
  `private_chat.dfy`, `slash_clear_memory.dfy`).

The Python string operations the code relies on (`strip`, `split`,
`join`, `lower`, `replace`, `int`, f-string rendering of `None`) are defined
once in `py_strings.dfy`. Everything the bot sends through Slack (`say`,
`ack`, `chat_postMessage`) is appended to one `SlackApi.Outbox` log, so the
order of sends can be observed. HTTP results, the LLM's reply, the
`users_info` answer and the random seed are parameters. Where the code
builds a request, the model returns that request.

Source files that hold state become classes whose methods change fields
(`ChatMemoryService`, `SerperSearchTool`, `MusicGenerationTool`,
`ComfyUIImageTool`, `BotManager`, `SlackBotService`, the handlers). Each
such method is proved against specification functions, and the properties
of those functions are proved as lemmas. `config.py` is pure and is
modelled as functions.

The handlers in `handlers/` call an LLM service that offers
`generate_reply(conv_id, text)`, `serper_web_search_tool` and `history_db`.
`services/llm_service.py` offers none of these. `AgentLlm.AgentLlmService`
models the interface the handlers use.

## Model

| member | source | states |
|---|---|---|
| ChatMemory.DequeAppendIsWindow | services/chat_memory_service.py:15-17 | appending to a deque of at most `maxlen` messages gives the newest `maxlen` messages; the bound holds afterwards; a full deque loses exactly its oldest message |
| ChatMemory.LastNAppend | services/chat_memory_service.py:17 | trimming to the cap before or after an append gives the same window |
| ChatMemory.AddToSpec | services/chat_memory_service.py:14-17 | one `add_message` keeps every history within the cap, changes only that user, and leaves the user's newest messages |
| ChatMemory.ReplayFrom | services/chat_memory_service.py:12-17 | after any sequence of `add_message` calls every history is still within the cap |
| ChatMemory.ReplayIsWindow | services/chat_memory_service.py:14-17 | after any sequence of appends a user's history is the last `max_history_size` of its earlier messages followed by the ones appended for it, in order |
| ChatMemory.ChatMemoryService.constructor | services/chat_memory_service.py:5-8 | the memory starts empty with the given cap |
| ChatMemory.ChatMemoryService.AddMessage | services/chat_memory_service.py:12-17 | the store is the old one with this user's history replaced by the window of old history plus the message; every other user is unchanged; the cap holds |
| ChatMemory.ChatMemoryService.GetHistory | services/chat_memory_service.py:19-26 | the result is the system message followed by the stored history, of length one more than the history; an unknown user gets the system message alone; the store is not changed |
| ChatMemory.ChatMemoryService.ClearUserHistory | services/chat_memory_service.py:28-31 | only that user is removed; for an absent user nothing changes and nothing fails |
| ChatMemory.ChatMemoryService.ResetAll | services/chat_memory_service.py:33-35 | every user's history is empty afterwards |
| EnvService.EntryNoneIff | services/env_service.py:19-25 | `read` skips a line exactly when it is blank, its stripped form starts with `#`, or it has no `=` |
| EnvService.EntrySplitsAtFirstEquals | services/env_service.py:27 | the key and value joined by `=` give back the stripped line, and the key has no `=`, so values may hold `=` |
| EnvService.FoldHasKey | services/env_service.py:18-28 | the dictionary built from the pairs has a key exactly when some pair carries it |
| EnvService.FoldLastWins | services/env_service.py:28 | a key's value is the one from its last pair |
| EnvService.ParseEnvHasKey | services/env_service.py:14-30 | `read` returns a key exactly when some line of the file carries it |
| EnvService.ParseEnvLastWins | services/env_service.py:27-28 | when a key occurs on several lines, `read` keeps the value from the last one |
| EnvService.ReadMissingFile | services/env_service.py:9-10 | a missing file reads as no lines and gives the empty dictionary |
| EnvService.Read | services/env_service.py:14-30 | the loop builds exactly the dictionary `ParseEnv` describes for the file's lines |
| EnvService.EscapeIsSingleLine | services/env_service.py:48 | an escaped value has no `\n` and no `\r`, so each written entry stays on one line |
| EnvService.EscapePlain | services/env_service.py:48 | a value without line breaks is written unchanged |
| EnvService.ExistingKeysOfOne | services/env_service.py:54 | for a line with `=` that does not start with `#`, the existing key is the trimmed text before the first `=` |
| EnvService.MissingUpdatesSnoc | services/env_service.py:55-58 | the second loop, one update further, appends the line of that update exactly when its key is not an existing key |
| EnvService.KeysCons | services/env_service.py:32 | the keys of the updates are the first key plus the keys of the rest |
| EnvService.DistinctKeysTail | services/env_service.py:32 | the rest of a dictionary's items still has distinct keys and does not hold the first key |
| EnvService.MissingUpdatesMembers | services/env_service.py:55-56 | an update is appended exactly when its key is not an existing key |
| EnvService.MissingUpdatesCount | services/env_service.py:54-58 | one line is appended per update key that is not an existing key |
| EnvService.RewriteLines | services/env_service.py:36-51 | the first loop writes each old line, in order, as `RewriteLine` describes it |
| EnvService.AppendMissing | services/env_service.py:53-58 | the second loop appends one `key=escaped value` line per update whose key is not an existing key, in the dictionary's order |
| EnvService.WriteSelected | services/env_service.py:32-58 | the two loops produce exactly the lines `WriteSelectedLines` describes |
| EnvService.WriteSelectedShape | services/env_service.py:36-58 | the output is the old lines rewritten in place followed by the appended keys; the length is the old length plus the number of keys not already present; skipped lines are kept verbatim in their positions; an updated key's line becomes `key=escaped value`; any other line is kept |
| EnvService.WriteSelectedNoUpdates | services/env_service.py:32-58 | with no updates the file is written back unchanged |
| EnvService.SpacedLineEntry | services/env_service.py:19-27 | the line `FOO = x` yields the key `FOO ` (with its trailing space) and the value ` x` |
| EnvService.SpacedLineExistingKey | services/env_service.py:54 | the existing-key set of that line trims the key to `FOO` |
| EnvService.SpacedKeyUpdateIsLost | services/env_service.py:43-58 | an update of `FOO` leaves the line `FOO = x` as it was and appends nothing, so the update is lost |
| Config.GetRequiredSpec | config.py:27-31 | `_get_required` succeeds exactly when the variable is set and non-empty, and then returns its value; otherwise it fails with `Missing environment variable: NAME` |
| Config.ChannelSetOfTrimmed | config.py:38 | pieces that are already trimmed and non-empty are kept as they are |
| Config.ParseChannelIdsNoneIff | config.py:33-36 | the allow-list is `None` (every channel allowed) exactly when the raw value is blank |
| Config.ParseChannelIdsElements | config.py:38 | the set is exactly the trimmed non-blank comma-separated pieces: each such piece is in it and every id comes from one, so no other channel is let in; no id is empty, has surrounding whitespace or holds a comma |
| Config.JoinEnds | config.py:38 | a comma list of non-empty pieces starts with the first piece's first character and ends with the last piece's last character |
| Config.ParseChannelIdsOfJoin | config.py:33-38 | a comma list of trimmed, non-empty, comma-free ids parses back to exactly the set of those ids |
| Config.FirstProblemNoneIff | config.py:9-25 | construction raises nothing exactly when every check passes |
| Config.FirstProblemAt | config.py:9-25 | the error raised is the error of the earliest failing check |
| Config.ShortMemoryChecked | config.py:15 | once every check has passed, `SHORT_MEMORY` holds an integer |
| Config.LoadConfigFailsAt | config.py:9-25 | construction fails with the first missing required variable, in declaration order |
| Config.LoadConfigSucceedsIff | config.py:9-25 | construction succeeds exactly when every required variable is set and `SHORT_MEMORY` is an integer |
| Config.LoadConfigDefaults | config.py:11-18 | unset `API_KEY` gives `""`, unset `SHORT_MEMORY` gives 10, and an unset allow-list gives `None` |
| Config.DefaultShortMemory | config.py:15 | the default text `"10"` reads as 10 |
| SerperWebSearch.EndpointChoice | tools/serper_web_search.py:16 | the news endpoint is chosen exactly when `"news"` occurs in the lower-cased query; otherwise the search endpoint is chosen |
| SerperWebSearch.SearchResultsSpec | tools/serper_web_search.py:33 | the results are `organic` when it has entries, `news` only when `organic` has none, and empty only when neither has entries |
| SerperWebSearch.Top | tools/serper_web_search.py:35 | the taken results are the first min(5, n) results |
| SerperWebSearch.NoResultsIff | tools/serper_web_search.py:43 | the answer is `No results found.` exactly when no result was taken; otherwise it starts with the first result's `Title/Snippet/Source` block |
| SerperWebSearch.SerperSearchTool.constructor | tools/serper_web_search.py:6-8 | the key is stored and the links start empty |
| SerperWebSearch.SerperSearchTool.Search | tools/serper_web_search.py:14-47 | the request goes to the chosen endpoint with the key and the query; after a failure the links are empty and the answer starts with `Error performing search: `; after success the links are those of the taken results, in order, and the answer joins their blocks; at most five links are kept |
| MusicGeneration.ApiUrl | tools/music_generation_tool.py:8 | the URL never ends in `/` |
| MusicGeneration.ApiUrlSpec | tools/music_generation_tool.py:8 | without the attribute the URL is `http://127.0.0.1:5001`; otherwise it is the configured URL minus trailing slashes only |
| MusicGeneration.ClampDuration | tools/music_generation_tool.py:25-26 | the duration sent is at most 20; a duration of 20 or less is kept as it is |
| MusicGeneration.StartedMessageMentions | tools/music_generation_tool.py:49-52 | the started message quotes the prompt verbatim and then gives the duration in decimal, which reads back as the duration |
| MusicGeneration.MusicGenerationTool.constructor | tools/music_generation_tool.py:5-9 | the URL is `ApiUrl` of the attribute and the tool starts idle |
| MusicGeneration.MusicGenerationTool.GenerateMusic | tools/music_generation_tool.py:15-57 | the tool is busy when the request is sent; the request carries the prompt and the clamped duration, 10 seconds when none is given, to `/generate`; on 200 it stays busy and answers with the started message; on another status it is idle and answers `Music Engine error: <status>`; on an exception it is idle and answers `Error connecting to Music Engine: ...` |
| ComfyTool.IntSettingSpec | tools/comfy_tool.py:14-16 | a missing or empty setting gives the default; an integer text reads as that integer, even `"0"` |
| ComfyTool.LoadSettingsDefaults | tools/comfy_tool.py:11-16 | without the attributes the settings are `http://127.0.0.1:8000`, 1024, 1024 and 20; the URL never ends in `/` |
| ComfyTool.PositiveTextEndsWithPrompt | tools/comfy_tool.py:34-38 | the positive prompt ends with `<Prompt Start> ` followed by the user's prompt, verbatim |
| ComfyTool.ComfyUIImageTool.constructor | tools/comfy_tool.py:8-18 | the tool's URL, width, height and steps are those `__init__` derives from the config's attributes, so the URL never ends in `/`; the tool starts idle |
| ComfyTool.ComfyUIImageTool.GenerateImage | tools/comfy_tool.py:27-111 | the tool is busy when the request is sent; the workflow goes to `/prompt` with the tool's width, height and steps and the seed drawn for it; on 200 the tool stays busy and gives the started text; on another status it is idle and answers `ComfyUI error: <status>`; on an exception it is idle and answers `Error connecting to ComfyUI: ...` |
| BotManager.BotManager.constructor | services/bot_manager.py:6-10 | no bot and no thread, so the bot is not running |
| BotManager.BotManager.Start | services/bot_manager.py:16-40 | while running it answers `already_running` and changes nothing; if building the service raises, the bot is cleared and the answer is `Error: ` plus the message; otherwise a new service (memory cap 10, tokens and allow-list from the config) and a new started thread are installed, the bot is running, and the answer is `success` |
| BotManager.BotManager.Stop | services/bot_manager.py:42-50 | when not running, or without a bot, nothing changes, so a second `stop` changes nothing; otherwise the service's connection is closed and cleared, both fields are cleared, and the bot is no longer running |
| SlackBotService.UsernameSpec | services/slack_bot_service.py:33-41 | the name is the first non-empty one of real name, display name and name; it is `User` when none is usable or the lookup raised; it is never empty |
| SlackApi.MentionTextSpec | services/slack_bot_service.py:44-45 | the cleaned text has no `>` and no surrounding whitespace; it is the trimmed text after the last `>`; text without `>` is only trimmed |
| SlackBotService.SlackBotService.constructor | services/slack_bot_service.py:8-21 | memory starts empty with cap `max_memory`, there is no connection, and the tokens and allow-list are stored |
| SlackBotService.SlackBotService.HandleMention | services/slack_bot_service.py:26-65 | a mention from a channel outside a set allow-list changes no memory and sends nothing; otherwise the model gets the system message followed by the user's stored history ending in the new context message; the user's memory gains that message and then the reply, within the cap, and the reply is said exactly once; when `generate_reply` raises, the context message stays stored without a reply and nothing is said; other users are unchanged |
| SlackBotService.SlackBotService.Answer | services/slack_bot_service.py:32-65 | the part past the allow-list check: the model's input, the user's new memory, and one `say` of the reply, or no `say` and no stored reply when the model call raised |
| SlackBotService.SlackBotService.Exchange | services/slack_bot_service.py:48-63 | the user's turn is stored before the history is read and the reply, when there is one, is stored after it |
| SlackBotService.SlackBotService.Connect | services/slack_bot_service.py:71-75 | `run_sync` opens a new connection and keeps it as the service's handler, the one `stop` closes |
| SlackBotService.SlackBotService.Stop | services/slack_bot_service.py:80-84 | an open connection is closed and cleared; without one this does nothing |
| SlackBotService.MentionExchangeIsWindow | services/slack_bot_service.py:48-63 | after a mention the user's memory is the newest messages of the old history, the context message and the reply; with a cap of at least 2 it ends with exactly those two, in that order |
| AgentLlm.SubstantiveIff | handlers/group_chat.py:24 | a reply is answered exactly when it is present and not all whitespace |
| GroupChat.GroupUsernameSpec | handlers/group_chat.py:13-17 | the name is the real name when it is non-empty and `User` otherwise, including when the lookup raised; display name and name play no part |
| GroupChat.PromptSplits | handlers/group_chat.py:19-22 | the prompt is `<username>: <cleaned text>`: splitting at the first colon gives back the name and the cleaned text when the name has no colon |
| GroupChat.ReplyBlocksSpec | handlers/group_chat.py:27-45 | the first block is a section with the reply; a context block is added exactly when there are links; it holds the `Web Sources` header and one bullet line per link, showing the link as its own text, in order; splitting at line breaks gives those lines back |
| GroupChat.GroupChatHandler.Handle | handlers/group_chat.py:5-51 | a bot's event makes no model call and sends nothing; otherwise the model gets the channel and the prompt, exactly one `say` follows, a blank reply gives the fixed empty-response text and leaves the links alone, and a real reply is sent with its blocks and the links are emptied; when the model call raises, nothing is said and the links stay |
| SlackApi.SourcedBlocksSpec | handlers/group_chat.py:27-45 | the reply's section comes first; a context block is added exactly when there are source lines, starts with the header, and splitting the rest at line breaks gives the lines back when none holds one |
| PrivateChat.ReplyBlocksSpec | handlers/private_chat.py:17-24 | the first block is a section with the reply; a `Sources` context block with one bullet line per link, in order, is added exactly when there are links; splitting at line breaks gives those lines back |
| PrivateChat.PrivateChatHandler.Handle | handlers/private_chat.py:5-30 | nothing happens unless the event is a direct message without a bot id; otherwise the model gets the channel and the raw text, exactly one `say` follows, a blank reply gives the fixed empty-response text, and a real reply is sent with its blocks and the links are emptied; when the model call raises, nothing is said and the links stay |
| SlashClearMemory.SlashClearMemoryHandler.ClearUserMemory | handlers/slash_clear_memory.py:15-24 | the channel's history is gone and every other entry is unchanged; an absent channel is no error; exactly one confirmation is posted to the channel either way |
| SlashClearMemory.SlashClearMemoryHandler.ClearUserMemoryCommand | handlers/slash_clear_memory.py:9-12 | the command is acknowledged before anything else is sent, then the memory is cleared and the confirmation posted |

## Left out

- Locks in `services/chat_memory_service.py`: operations are modelled one at a time.
- Threads: the worker thread is a handle with an `alive` flag. `join(timeout=2)` is not modelled, and `Stop` leaves the old thread's flag as it was.
- `SlackBotService.run_sync`: only its first step, opening the connection (`SlackBotService.SlackBotService.Connect`), is modelled. The polling loop and the `message` no-op handler are not.
- `services/llm_service.py`, `tools/time_tool.py`, `web/app.py` and `main.py`: these are an API client, a wall-clock tool and web/UI plumbing. The LLM's reply is an input everywhere: the text it returned, or the message of the exception it raised.
- `web/app.py:27` builds `BotManager(slack_bot)` with one argument. The two-argument constructor of `services/bot_manager.py` is modelled as written.
- File I/O in `services/env_service.py`: the file is `Option<seq<string>>` (None when missing) in, and lines out. The same lines are written twice, which is modelled as one write.
- `str.lower()` is modelled for ASCII letters only, and `int()` for an optional sign and ASCII digits. Underscores and non-ASCII digits are not accepted.
- `ComfyTool.IntSetting`: the config attribute is a string or absent. Integer-valued attributes, and the `int()` error message, are not modelled.
- `MusicGeneration.MusicGenerationTool.constructor`: `Config` has no `MUSIC_API_URL`, so with the real config the default URL is always used. The optional attribute is still a parameter.
- HTTP calls, `random.randint`, `users_info` and the Slack client are parameters or the outbox log. The node wiring and class names of the ComfyUI workflow are left out.
- `EnvService` update values are strings: `str()` of a non-string value is not modelled.
- Search results that are not dictionaries are not modelled: every item has optional `title`, `link` and `snippet`.
- Event fields `channel` and `user` are taken as present. `text` may be absent.
- `GroupChat.GroupChatHandler.Handle`, `PrivateChat.PrivateChatHandler.Handle`: `generate_reply` may run a search and so change the links. The links on entry stand for the links after that call, and its effect on `history_db` is not modelled.
- Debug output to the console is not modelled.

=== FILE: agent_llm.dfy ===
/** The LLM service object the chat handlers are written against. The
    handlers call `generate_reply(conv_id, text)`, read and reset
    `serper_web_search_tool.latest_links`, and delete entries of
    `history_db`; services/llm_service.py offers none of these, so this is
    the interface the handlers rely on, with the reply itself an input. */
module AgentLlm {
  import opened Wrappers
  import opened PyStrings
  import opened ChatMemory
  import opened SerperWebSearch

  /** What both chat handlers say when the model gave nothing usable. */
  const EmptyReplyText: string := "The AI returned an empty response. Check the logs."

  /** `reply and reply.strip()`: a reply was returned and it is not all
      whitespace. */
  predicate Substantive(reply: Option<string>) {
    reply.Some? && Strip(reply.value) != ""
  }

  /** A substantive reply is non-empty and has a non-space character; an
      absent, empty or all-whitespace reply is not substantive. */
  lemma SubstantiveIff(reply: Option<string>)
    ensures Substantive(reply) <==> reply.Some? && !AllSpace(reply.value)
    ensures Substantive(reply) ==> reply.value != ""
  {
    if reply.Some? {
      StripEmptyIff(reply.value);
    }
  }

  class AgentLlmService {
    const serperWebSearchTool: SerperSearchTool
    /** Conversation histories keyed by conversation (channel) id. */
    var historyDb: map<string, seq<Msg>>

    constructor (serperWebSearchTool: SerperSearchTool)
      ensures this.serperWebSearchTool == serperWebSearchTool && historyDb == map[]
    {
      this.serperWebSearchTool := serperWebSearchTool;
      historyDb := map[];
    }
  }
}

=== FILE: bot_manager.dfy ===
/** Starting and stopping the bot (services/bot_manager.py). The worker
    thread is an abstract handle with an `alive` flag; whether building the
    Slack service raises is an input. */
module BotManager {
  import opened Wrappers
  import Config
  import opened SlackBotService

  const AlreadyRunning: string := "already_running"
  const SuccessText: string := "success"

  /** The thread that runs `SlackBotService.run_sync`. */
  class BotThread {
    var alive: bool

    constructor ()
      ensures !alive
    {
      alive := false;
    }

    method Start()
      modifies this
      ensures alive
    {
      alive := true;
    }
  }

  class BotManager {
    const config: Config.Config
    const llm: LlmService
    var slackBot: SlackBotService?
    var thread: BotThread?

    /** `__init__(config, llm_service)`: nothing started yet. */
    constructor (config: Config.Config, llm: LlmService)
      ensures this.config == config && this.llm == llm
      ensures slackBot == null && thread == null
      ensures !IsRunning()
    {
      this.config := config;
      this.llm := llm;
      slackBot := null;
      thread := null;
    }

    /** `is_running`: there is a thread and it is alive. */
    predicate IsRunning()
      reads this, thread
    {
      thread != null && thread.alive
    }

    /** `start`. `initError` is the message of the exception building the
        Slack service raised, if it raised. */
    method Start(initError: Option<string>) returns (result: string)
      modifies this
      ensures old(IsRunning()) ==>
                result == AlreadyRunning && slackBot == old(slackBot) && thread == old(thread)
      ensures !old(IsRunning()) && initError.Some? ==>
                result == "Error: " + initError.value && slackBot == null && thread == old(thread)
      ensures !old(IsRunning()) && initError.None? ==>
                && result == SuccessText
                && slackBot != null && fresh(slackBot) && thread != null && fresh(thread)
                && IsRunning() && slackBot.handler == null
                && slackBot.llm == llm && slackBot.botToken == config.botToken
                && slackBot.appToken == config.appToken
                && slackBot.allowedChannelIds == config.allowedGroupChannelIds
                && slackBot.memory.maxHistorySize == DefaultMaxMemory
                && slackBot.memory.userHistories == map[]
    {
      if thread != null && thread.alive {
        return AlreadyRunning;
      }
      if initError.Some? {
        slackBot := null;
        return "Error: " + initError.value;
      }
      slackBot := new SlackBotService(llm, config.botToken, config.appToken, config.allowedGroupChannelIds, DefaultMaxMemory);
      thread := new BotThread();
      thread.Start();
      result := SuccessText;
    }

    /** `stop`: nothing happens unless the bot runs; otherwise the Slack
        service is stopped and both fields are cleared. */
    method Stop()
      modifies this, slackBot
      modifies if slackBot != null then slackBot.handler else null
      ensures !old(IsRunning()) || old(slackBot) == null ==>
                slackBot == old(slackBot) && thread == old(thread)
                && (slackBot != null ==> slackBot.handler == old(slackBot.handler))
                && (slackBot != null && slackBot.handler != null ==> slackBot.handler.open == old(slackBot.handler.open))
      ensures old(IsRunning()) && old(slackBot) != null ==>
                && slackBot == null && thread == null && !IsRunning()
                && old(slackBot).handler == null
                && (old(slackBot.handler) != null ==> !old(slackBot.handler).open)
    {
      if !(thread != null && thread.alive) || slackBot == null {
        return;
      }
      slackBot.Stop();
      if thread != null {
        thread := null;
      }
      slackBot := null;
    }
  }
}

=== FILE: chat_memory.dfy ===
/** Per-user short-term memory (services/chat_memory_service.py): a map from
    user id to a bounded FIFO of chat messages. Each FIFO behaves like a
    Python `deque(maxlen=max_history_size)`, so the cap counts messages. */
module ChatMemory {

  /** One `{"role": ..., "content": ...}` entry. */
  datatype Msg = Msg(role: string, content: string)

  const SystemRole: string := "system"
  const UserRole: string := "user"
  const AssistantRole: string := "assistant"

  /** The last `n` elements of `s`, or all of `s` when it is shorter. */
  function LastN<T>(s: seq<T>, n: nat): seq<T> {
    if |s| <= n then s else s[|s| - n..]
  }

  /** `d.append(m)` on a deque `d` with `maxlen`: when the deque is full the
      leftmost (oldest) element is dropped; a deque with `maxlen=0` stays
      empty. */
  function DequeAppend(h: seq<Msg>, m: Msg, maxlen: nat): seq<Msg>
    requires |h| <= maxlen
  {
    if |h| < maxlen then h + [m]
    else if maxlen == 0 then []
    else h[1..] + [m]
  }

  /** Appending to a bounded deque keeps exactly the newest `maxlen`
      messages, so the bound is preserved; a full deque loses exactly its
      oldest message. */
  lemma DequeAppendIsWindow(h: seq<Msg>, m: Msg, maxlen: nat)
    requires |h| <= maxlen
    ensures DequeAppend(h, m, maxlen) == LastN(h + [m], maxlen)
    ensures |DequeAppend(h, m, maxlen)| <= maxlen
    ensures 0 < |h| == maxlen ==> DequeAppend(h, m, maxlen) == h[1..] + [m]
  {
    if |h| == maxlen && maxlen > 0 {
      assert (h + [m])[|h + [m]| - maxlen..] == h[1..] + [m];
    }
  }

  /** Taking a window of a window changes nothing beyond the outer window. */
  lemma LastNAppend<T>(s: seq<T>, x: T, n: nat)
    ensures LastN(LastN(s, n) + [x], n) == LastN(s + [x], n)
  {
    if |s| > n {
      var w := s[|s| - n..];
      assert (w + [x])[|w + [x]| - n..] == (s + [x])[|s + [x]| - n..];
    }
  }

  /** Every stored history respects the cap. */
  ghost predicate Bounded(histories: map<string, seq<Msg>>, maxlen: nat) {
    forall u :: u in histories ==> |histories[u]| <= maxlen
  }

  /** `self._user_histories.get(user_id, [])`. */
  function Stored(histories: map<string, seq<Msg>>, userId: string): seq<Msg> {
    if userId in histories then histories[userId] else []
  }

  /** The whole store after `add_message(user_id, ...)`: a missing user gets
      a fresh empty deque first, then the message is appended. */
  function AddTo(histories: map<string, seq<Msg>>, maxlen: nat, userId: string, m: Msg): map<string, seq<Msg>>
    requires Bounded(histories, maxlen)
  {
    histories[userId := DequeAppend(Stored(histories, userId), m, maxlen)]
  }

  /** `AddTo` keeps the bound, changes only `userId`, and leaves it holding
      the newest messages up to the cap. */
  lemma AddToSpec(histories: map<string, seq<Msg>>, maxlen: nat, userId: string, m: Msg)
    requires Bounded(histories, maxlen)
    ensures Bounded(AddTo(histories, maxlen, userId, m), maxlen)
    ensures Stored(AddTo(histories, maxlen, userId, m), userId) == LastN(Stored(histories, userId) + [m], maxlen)
    ensures forall u :: u != userId ==> Stored(AddTo(histories, maxlen, userId, m), u) == Stored(histories, u)
  {
    DequeAppendIsWindow(Stored(histories, userId), m, maxlen);
  }

  /** One recorded `add_message(user_id, role, content)` call. */
  datatype Append = Append(userId: string, msg: Msg)

  /** The store after the given calls, in order, starting from `start`. */
  function ReplayFrom(start: map<string, seq<Msg>>, maxlen: nat, calls: seq<Append>): (h: map<string, seq<Msg>>)
    requires Bounded(start, maxlen)
    ensures Bounded(h, maxlen)
    decreases |calls|
  {
    if calls == [] then start
    else
      var before := ReplayFrom(start, maxlen, calls[..|calls| - 1]);
      var last := calls[|calls| - 1];
      AddToSpec(before, maxlen, last.userId, last.msg);
      AddTo(before, maxlen, last.userId, last.msg)
  }

  /** The messages among `calls` that were appended for `userId`, in order. */
  function MessagesFor(calls: seq<Append>, userId: string): seq<Msg>
    decreases |calls|
  {
    if calls == [] then []
    else
      var last := calls[|calls| - 1];
      MessagesFor(calls[..|calls| - 1], userId) + (if last.userId == userId then [last.msg] else [])
  }

  /** After any sequence of appends, a user's history is the newest
      `maxlen` of the messages it held before and those appended for it
      since, in order. */
  lemma {:induction false} ReplayIsWindow(start: map<string, seq<Msg>>, maxlen: nat, calls: seq<Append>, userId: string)
    requires Bounded(start, maxlen)
    ensures Stored(ReplayFrom(start, maxlen, calls), userId)
         == LastN(Stored(start, userId) + MessagesFor(calls, userId), maxlen)
    decreases |calls|
  {
    var prior := Stored(start, userId);
    if calls == [] {
      assert prior + [] == prior;
    } else {
      var init := calls[..|calls| - 1];
      var last := calls[|calls| - 1];
      var before := ReplayFrom(start, maxlen, init);
      assert ReplayFrom(start, maxlen, calls) == AddTo(before, maxlen, last.userId, last.msg);
      ReplayIsWindow(start, maxlen, init, userId);
      AddToSpec(before, maxlen, last.userId, last.msg);
      var older := prior + MessagesFor(init, userId);
      if last.userId == userId {
        assert MessagesFor(calls, userId) == MessagesFor(init, userId) + [last.msg];
        LastNAppend(older, last.msg, maxlen);
        assert older + [last.msg] == prior + MessagesFor(calls, userId);
      } else {
        assert MessagesFor(calls, userId) == MessagesFor(init, userId);
      }
    }
  }

  class ChatMemoryService {
    const maxHistorySize: nat
    var userHistories: map<string, seq<Msg>>

    ghost predicate Valid()
      reads this
    {
      Bounded(userHistories, maxHistorySize)
    }

    /** The messages currently stored for `userId` (none for an unknown user). */
    function StoredFor(userId: string): seq<Msg>
      reads this
    {
      Stored(userHistories, userId)
    }

    constructor (maxHistorySize: nat)
      ensures Valid()
      ensures this.maxHistorySize == maxHistorySize && userHistories == map[]
    {
      this.maxHistorySize := maxHistorySize;
      userHistories := map[];
    }

    /** `add_message`: append to the user's deque, creating it on first use. */
    method AddMessage(userId: string, role: string, content: string)
      requires Valid()
      modifies this
      ensures Valid()
      ensures userHistories == old(userHistories)[userId := LastN(old(StoredFor(userId)) + [Msg(role, content)], maxHistorySize)]
      ensures StoredFor(userId) == LastN(old(StoredFor(userId)) + [Msg(role, content)], maxHistorySize)
      ensures forall u :: u != userId ==> StoredFor(u) == old(StoredFor(u))
    {
      DequeAppendIsWindow(StoredFor(userId), Msg(role, content), maxHistorySize);
      if userId !in userHistories {
        userHistories := userHistories[userId := []];
      }
      userHistories := userHistories[userId := DequeAppend(userHistories[userId], Msg(role, content), maxHistorySize)];
    }

    /** `get_history`: a fresh list made of the system message followed by
        the stored history; the store itself is only read. */
    method GetHistory(userId: string, systemMessage: string) returns (full: seq<Msg>)
      ensures full == [Msg(SystemRole, systemMessage)] + StoredFor(userId)
      ensures |full| == 1 + |StoredFor(userId)|
      ensures userId !in userHistories ==> full == [Msg(SystemRole, systemMessage)]
    {
      var history := if userId in userHistories then userHistories[userId] else [];
      full := [Msg(SystemRole, systemMessage)];
      full := full + history;
    }

    /** `clear_user_history`: drop the user's deque; nothing happens for an
        unknown user. */
    method ClearUserHistory(userId: string)
      requires Valid()
      modifies this
      ensures Valid()
      ensures userHistories == old(userHistories) - {userId}
      ensures StoredFor(userId) == []
      ensures old(userId !in userHistories) ==> userHistories == old(userHistories)
    {
      if userId in userHistories {
        userHistories := userHistories - {userId};
      }
    }

    /** `reset_all`: forget every user. */
    method ResetAll()
      modifies this
      ensures Valid()
      ensures userHistories == map[]
      ensures forall u :: StoredFor(u) == []
    {
      userHistories := map[];
    }
  }
}

=== FILE: comfy_tool.dfy ===
/** The image tool (tools/comfy_tool.py). The POST to ComfyUI is not
    performed: its outcome is a parameter, the random seed is a parameter,
    and the request (URL and workflow) is returned. */
module ComfyTool {
  import opened Wrappers
  import opened PyStrings
  import opened Http

  const DefaultApiUrl: string := "http://127.0.0.1:8000"
  const DefaultWidth: int := 1024
  const DefaultHeight: int := 1024
  const DefaultSteps: int := 20
  const MinSeed: int := 10000
  const MaxSeed: int := 999999999

  const PromptPreamble: string :=
    "You are an assistant designed to generate superior images with a "
    + "superior degree of text-image alignment based on the following prompt: "
    + "<Prompt Start> "
  const NegativePrompt: string := "low quality, blurry, distorted, bad hands, bad anatomy"
  const StartedText: string := "Image generation started successfully. I will post it here as soon as it is ready."

  /** The settings `__init__` derives from the config object. */
  datatype ComfySettings = ComfySettings(apiUrl: string, width: int, height: int, steps: int)

  /** `int(getattr(config, name, default) or default)` for a config whose
      attributes are strings (`None` when the attribute is absent): a
      missing or empty value gives the default; anything else goes
      through `int()`, which fails (`None`) on a non-integer. */
  function IntSetting(attr: Option<string>, default: int): Option<int> {
    if attr.None? || attr.value == "" then Some(default) else ParseInt(attr.value)
  }

  /** The fallback applies only to a missing or empty value: an integer
      text such as `"0"` is truthy and is used as it reads. */
  lemma IntSettingSpec(attr: Option<string>, default: int, n: int)
    ensures attr.None? || attr == Some("") ==> IntSetting(attr, default) == Some(default)
    ensures IntSetting(Some(IntToString(n)), default) == Some(n)
  {
    var s := IntToString(n);
    ParseIntOfIntToString(n);
    assert s != "" by {
      if n < 0 {
        assert s[0] == '-';
      } else {
        assert |NatToString(n)| >= 1;
      }
    }
  }

  /** `__init__`'s derived values; `None` when one of the `int()` calls
      raises. */
  function LoadSettings(comfyApi: Option<string>, width: Option<string>, height: Option<string>, steps: Option<string>)
    : Option<ComfySettings>
  {
    var w :- IntSetting(width, DefaultWidth);
    var h :- IntSetting(height, DefaultHeight);
    var st :- IntSetting(steps, DefaultSteps);
    Some(ComfySettings(StripRightChar(comfyApi.GetOr(DefaultApiUrl), '/'), w, h, st))
  }

  /** A config object without any of the attributes gives the documented
      defaults, and the URL never ends in a slash. */
  lemma LoadSettingsDefaults(comfyApi: Option<string>, width: Option<string>, height: Option<string>, steps: Option<string>)
    ensures LoadSettings(None, None, None, None) == Some(ComfySettings(DefaultApiUrl, 1024, 1024, 20))
    ensures var s := LoadSettings(comfyApi, width, height, steps);
      s.Some? ==> s.value.apiUrl == [] || s.value.apiUrl[|s.value.apiUrl| - 1] != '/'
  {
    assert DefaultApiUrl[|DefaultApiUrl| - 1] == '0';
  }

  /** The values of the workflow graph the tool posts; the node wiring and
      class names are fixed and are not represented. */
  datatype Workflow = Workflow(
    ckptName: string,
    positiveText: string,
    negativeText: string,
    width: int,
    height: int,
    batchSize: int,
    shift: int,
    seed: int,
    steps: int,
    cfg: int,
    samplerName: string,
    scheduler: string,
    denoise: int,
    filenamePrefix: string)

  /** The workflow for a prompt, the tool's dimensions and steps and a seed. */
  function BuildWorkflow(userPrompt: string, width: int, height: int, steps: int, seed: int): Workflow {
    Workflow(
      ckptName := "lumina_2.safetensors",
      positiveText := PromptPreamble + userPrompt,
      negativeText := NegativePrompt,
      width := width,
      height := height,
      batchSize := 1,
      shift := 4,
      seed := seed,
      steps := steps,
      cfg := 4,
      samplerName := "res_multistep",
      scheduler := "simple",
      denoise := 1,
      filenamePrefix := "Lumina2_Num_")
  }

  /** The positive prompt ends with `<Prompt Start> ` and the user's prompt,
      verbatim. */
  lemma PositiveTextEndsWithPrompt(userPrompt: string, width: int, height: int, steps: int, seed: int)
    ensures var t := BuildWorkflow(userPrompt, width, height, steps, seed).positiveText;
      HasSuffix(t, "<Prompt Start> " + userPrompt)
      && t[|t| - |userPrompt|..] == userPrompt
  {
    var t := BuildWorkflow(userPrompt, width, height, steps, seed).positiveText;
    var marker := "<Prompt Start> ";
    assert |marker| == 15;
    assert PromptPreamble[|PromptPreamble| - 15..] == marker;
    assert t[|t| - |userPrompt|..] == userPrompt;
    assert t[|t| - |marker + userPrompt|..] == marker + userPrompt;
  }

  datatype ComfyRequest = ComfyRequest(url: string, workflow: Workflow)

  class ComfyUIImageTool {
    const apiUrl: string
    const width: int
    const height: int
    const steps: int
    var isGenerating: bool

    /** `__init__`: the settings `LoadSettings` derives from the config's
        attributes; construction raises (the precondition fails) when one
        of the `int()` calls does. */
    constructor (comfyApi: Option<string>, width: Option<string>, height: Option<string>, steps: Option<string>)
      requires LoadSettings(comfyApi, width, height, steps).Some?
      ensures var settings := LoadSettings(comfyApi, width, height, steps).value;
        apiUrl == settings.apiUrl && this.width == settings.width
        && this.height == settings.height && this.steps == settings.steps
      ensures apiUrl == [] || apiUrl[|apiUrl| - 1] != '/'
      ensures !isGenerating
    {
      var settings := LoadSettings(comfyApi, width, height, steps).value;
      LoadSettingsDefaults(comfyApi, width, height, steps);
      apiUrl := settings.apiUrl;
      this.width := settings.width;
      this.height := settings.height;
      this.steps := settings.steps;
      isGenerating := false;
    }

    /** `generate_image`: raise the busy flag, POST the workflow, and lower
        the flag again unless ComfyUI accepted it. `seed` is the value
        `random.randint(10000, 999999999)` drew, so its range is randint's
        guarantee and is taken as given. */
    method GenerateImage(userPrompt: string, seed: int, outcome: HttpOutcome)
      returns (request: ComfyRequest, busyWhenSent: bool, reply: string)
      requires MinSeed <= seed <= MaxSeed
      modifies this
      ensures request.url == apiUrl + "/prompt"
      ensures request.workflow == BuildWorkflow(userPrompt, width, height, steps, seed)
      ensures busyWhenSent
      ensures outcome == Responded(200) ==> isGenerating && reply == StartedText
      ensures outcome.Responded? && outcome.status != 200 ==>
                !isGenerating && reply == "ComfyUI error: " + IntToString(outcome.status)
      ensures outcome.Raised? ==> !isGenerating && reply == "Error connecting to ComfyUI: " + outcome.message
    {
      isGenerating := true;
      var targetUrl := apiUrl + "/prompt";
      var workflow := BuildWorkflow(userPrompt, width, height, steps, seed);
      request := ComfyRequest(targetUrl, workflow);
      busyWhenSent := isGenerating;
      match outcome
      case Raised(message) =>
        isGenerating := false;
        reply := "Error connecting to ComfyUI: " + message;
      case Responded(status) =>
        if status != 200 {
          isGenerating := false;
          reply := "ComfyUI error: " + IntToString(status);
        } else {
          reply := StartedText;
        }
    }
  }
}

=== FILE: config.dfy ===
/** Start-up configuration (config.py). The process environment, after
    `.env` has been loaded into it, is a map from variable name to value. */
module Config {
  import opened Wrappers
  import opened PyStrings

  type Env = map<string, string>

  /** `os.getenv(name, default)`. */
  function GetEnv(env: Env, name: string, default: string): string {
    if name in env then env[name] else default
  }

  /** Why construction raised: a required variable that is unset or empty
      (`RuntimeError`), or a `SHORT_MEMORY` that `int()` rejects
      (`ValueError`). */
  datatype ConfigError =
    | MissingVariable(name: string)
    | InvalidInteger(name: string, raw: string)

  /** The text of the `RuntimeError` for a missing variable. */
  function MissingMessage(name: string): string {
    "Missing environment variable: " + name
  }

  /** `_get_required`: the value when it is set and non-empty. */
  function GetRequired(env: Env, name: string): Result<string, ConfigError> {
    var value := if name in env then Some(env[name]) else None;
    if value == None || value.value == "" then Failure(MissingVariable(name))
    else Success(value.value)
  }

  /** `_get_required` accepts exactly the set, non-empty variables, returns
      their value untouched, and otherwise reports the variable by name. */
  lemma GetRequiredSpec(env: Env, name: string)
    ensures GetRequired(env, name).Success? <==> name in env && env[name] != ""
    ensures GetRequired(env, name).Success? ==> GetRequired(env, name).value == env[name]
    ensures GetRequired(env, name).Failure? ==>
              GetRequired(env, name).error == MissingVariable(name)
              && MissingMessage(GetRequired(env, name).error.name) == "Missing environment variable: " + name
  {
  }

  /** `_parse_channel_ids`: `None` (every channel allowed) for a blank
      value, otherwise the trimmed non-empty comma-separated pieces. */
  function ParseChannelIds(raw: string): Option<set<string>> {
    var t := Strip(raw);
    if t == "" then None
    else Some(ChannelSet(Split(t, ',')))
  }

  /** `{v.strip() for v in pieces if v.strip()}`. */
  function ChannelSet(pieces: seq<string>): set<string> {
    set p | p in pieces && Strip(p) != "" :: Strip(p)
  }

  /** Pieces that are already trimmed and non-empty are kept as they are. */
  lemma ChannelSetOfTrimmed(pieces: seq<string>)
    requires forall k :: 0 <= k < |pieces| ==> pieces[k] != "" && Trimmed(pieces[k])
    ensures ChannelSet(pieces) == set k | 0 <= k < |pieces| :: pieces[k]
  {
    forall k | 0 <= k < |pieces| ensures pieces[k] in ChannelSet(pieces) {
      StripTrimmed(pieces[k]);
    }
    forall x | x in ChannelSet(pieces) ensures x in set k | 0 <= k < |pieces| :: pieces[k] {
      var p :| p in pieces && Strip(p) != "" && Strip(p) == x;
      var k :| 0 <= k < |pieces| && pieces[k] == p;
      StripTrimmed(p);
    }
  }

  /** Blank input, and only blank input, means "no restriction". */
  lemma ParseChannelIdsNoneIff(raw: string)
    ensures ParseChannelIds(raw).None? <==> AllSpace(raw)
  {
    StripEmptyIff(raw);
  }

  /** The set is exactly the trimmed non-blank pieces of the list: every
      non-blank piece is among them once trimmed, and every id comes from
      such a piece, so no channel outside the list is let in. Every id is
      non-empty, has no surrounding whitespace and no comma. */
  lemma ParseChannelIdsElements(raw: string)
    requires ParseChannelIds(raw).Some?
    ensures forall id :: id in ParseChannelIds(raw).value ==> id != "" && Trimmed(id) && ',' !in id
    ensures forall p :: p in Split(Strip(raw), ',') && !AllSpace(p) ==> Strip(p) in ParseChannelIds(raw).value
    ensures forall id :: id in ParseChannelIds(raw).value ==>
              exists p :: p in Split(Strip(raw), ',') && !AllSpace(p) && Strip(p) == id
  {
    var t := Strip(raw);
    forall id | id in ParseChannelIds(raw).value
      ensures id != "" && Trimmed(id) && ',' !in id
      ensures exists p :: p in Split(t, ',') && !AllSpace(p) && Strip(p) == id
    {
      var p :| p in Split(t, ',') && Strip(p) != "" && Strip(p) == id;
      StripKeeps(p, ',');
      StripEmptyIff(p);
    }
    forall p | p in Split(t, ',') && !AllSpace(p)
      ensures Strip(p) in ParseChannelIds(raw).value
    {
      StripEmptyIff(p);
    }
  }

  /** The ends of `sep.join(pieces)` are the ends of the first and last pieces. */
  lemma {:induction false} JoinEnds(pieces: seq<string>, sep: string)
    requires |pieces| >= 1 && forall k :: 0 <= k < |pieces| ==> pieces[k] != []
    ensures var j := Join(pieces, sep);
      j != [] && j[0] == pieces[0][0] && j[|j| - 1] == pieces[|pieces| - 1][|pieces[|pieces| - 1]| - 1]
    decreases |pieces|
  {
    if |pieces| > 1 {
      var rest := pieces[1..];
      JoinEnds(rest, sep);
      assert rest[|rest| - 1] == pieces[|pieces| - 1];
    }
  }

  /** A comma list of well-formed ids parses back to exactly those ids. */
  lemma ParseChannelIdsOfJoin(ids: seq<string>)
    requires |ids| >= 1
    requires forall k :: 0 <= k < |ids| ==> ids[k] != "" && Trimmed(ids[k]) && ',' !in ids[k]
    ensures ParseChannelIds(Join(ids, ",")) == Some(set k | 0 <= k < |ids| :: ids[k])
  {
    var j := Join(ids, ",");
    JoinEnds(ids, ",");
    assert Trimmed(j);
    StripTrimmed(j);
    SplitJoin(ids, ',');
    ChannelSetOfTrimmed(ids);
  }

  /** The fields `Config.__init__` sets. */
  datatype Config = Config(
    botToken: string,
    appToken: string,
    apiKey: string,
    localHost: string,
    model: string,
    systemMessage: string,
    shortMemory: int,
    allowedGroupChannelIds: Option<set<string>>,
    serperApiKey: string,
    comfyuiApi: string,
    comfyuiImagePath: string,
    comfyuiImageWidth: string,
    comfyuiImageHeight: string,
    comfyuiSteps: string,
    visionModel: string)

  /** One check construction performs that can raise. */
  datatype Check = Required(name: string) | Integer(name: string, default: string)

  /** The raising checks in the order `__init__` performs them: five
      required variables, then `int(SHORT_MEMORY)`, then seven more
      required variables. */
  const Checks: seq<Check> := [
    Required("BOT_TOKEN"), Required("APP_TOKEN"), Required("LOCAL_HOST"), Required("MODEL"),
    Required("SYSTEM_MESSAGE"), Integer("SHORT_MEMORY", "10"), Required("SERPER_API_KEY"),
    Required("COMFYUI_API"), Required("COMFYUI_IMAGE_PATH"), Required("COMFYUI_IMAGE_WIDTH"),
    Required("COMFYUI_IMAGE_HEIGHT"), Required("COMFYUI_STEPS"), Required("VISION_MODEL")]

  /** The error one check raises, if any: `_get_required` for a required
      variable, `int(os.getenv(name, default))` for the integer. */
  function Problem(env: Env, c: Check): Option<ConfigError> {
    match c
    case Required(name) =>
      if GetRequired(env, name).Failure? then Some(GetRequired(env, name).error) else None
    case Integer(name, default) =>
      var raw := GetEnv(env, name, default);
      if ParseInt(raw).Some? then None else Some(InvalidInteger(name, raw))
  }

  /** The error of the first failing check: Python stops at the first raise. */
  function FirstProblem(env: Env, checks: seq<Check>): Option<ConfigError>
    decreases |checks|
  {
    if checks == [] then None
    else if Problem(env, checks[0]).Some? then Problem(env, checks[0])
    else FirstProblem(env, checks[1..])
  }

  /** No error is raised exactly when every check passes. */
  lemma {:induction false} FirstProblemNoneIff(env: Env, checks: seq<Check>)
    ensures FirstProblem(env, checks).None? <==> forall j :: 0 <= j < |checks| ==> Problem(env, checks[j]).None?
    decreases |checks|
  {
    if checks != [] {
      FirstProblemNoneIff(env, checks[1..]);
      assert forall j :: 1 <= j < |checks| ==> checks[j] == checks[1..][j - 1];
    }
  }

  /** The raised error is that of the earliest failing check. */
  lemma {:induction false} FirstProblemAt(env: Env, checks: seq<Check>, k: nat)
    requires k < |checks| && Problem(env, checks[k]).Some?
    requires forall j :: 0 <= j < k ==> Problem(env, checks[j]).None?
    ensures FirstProblem(env, checks) == Problem(env, checks[k])
    decreases k
  {
    if k > 0 {
      assert Problem(env, checks[0]).None?;
      FirstProblemAt(env, checks[1..], k - 1);
    }
  }

  /** Once every check has passed, `SHORT_MEMORY` holds an integer. */
  lemma ShortMemoryChecked(env: Env)
    requires FirstProblem(env, Checks).None?
    ensures ParseInt(GetEnv(env, "SHORT_MEMORY", "10")).Some?
  {
    FirstProblemNoneIff(env, Checks);
    assert Problem(env, Checks[5]).None?;
  }

  /** `Config()`: it raises the first error of the checks in declaration
      order; otherwise every field is read from the environment, with
      `API_KEY` defaulting to `""`, `SHORT_MEMORY` to `"10"` and
      `ALLOWED_GROUP_CHANNEL_IDS` to `""`. */
  function LoadConfig(env: Env): Result<Config, ConfigError> {
    match FirstProblem(env, Checks)
    case Some(e) => Failure(e)
    case None =>
      ShortMemoryChecked(env);
      Success(Config(
        botToken := GetEnv(env, "BOT_TOKEN", ""),
        appToken := GetEnv(env, "APP_TOKEN", ""),
        apiKey := GetEnv(env, "API_KEY", ""),
        localHost := GetEnv(env, "LOCAL_HOST", ""),
        model := GetEnv(env, "MODEL", ""),
        systemMessage := GetEnv(env, "SYSTEM_MESSAGE", ""),
        shortMemory := ParseInt(GetEnv(env, "SHORT_MEMORY", "10")).value,
        allowedGroupChannelIds := ParseChannelIds(GetEnv(env, "ALLOWED_GROUP_CHANNEL_IDS", "")),
        serperApiKey := GetEnv(env, "SERPER_API_KEY", ""),
        comfyuiApi := GetEnv(env, "COMFYUI_API", ""),
        comfyuiImagePath := GetEnv(env, "COMFYUI_IMAGE_PATH", ""),
        comfyuiImageWidth := GetEnv(env, "COMFYUI_IMAGE_WIDTH", ""),
        comfyuiImageHeight := GetEnv(env, "COMFYUI_IMAGE_HEIGHT", ""),
        comfyuiSteps := GetEnv(env, "COMFYUI_STEPS", ""),
        visionModel := GetEnv(env, "VISION_MODEL", "")))
  }

  /** Construction fails on a missing required variable exactly when no
      earlier check failed, and then reports that variable. */
  lemma LoadConfigFailsAt(env: Env, k: nat)
    requires k < |Checks| && Problem(env, Checks[k]).Some?
    requires forall j :: 0 <= j < k ==> Problem(env, Checks[j]).None?
    ensures LoadConfig(env) == Failure(Problem(env, Checks[k]).value)
  {
    FirstProblemAt(env, Checks, k);
  }

  /** Construction succeeds exactly when every required variable is set and
      non-empty and `SHORT_MEMORY` (or its default) is an integer. */
  lemma LoadConfigSucceedsIff(env: Env)
    ensures LoadConfig(env).Success? <==> forall j :: 0 <= j < |Checks| ==> Problem(env, Checks[j]).None?
  {
    FirstProblemNoneIff(env, Checks);
  }

  /** Unset optional variables take their defaults: `API_KEY` is empty,
      `SHORT_MEMORY` is 10 and every channel is allowed. */
  lemma LoadConfigDefaults(env: Env)
    requires LoadConfig(env).Success?
    ensures "API_KEY" !in env ==> LoadConfig(env).value.apiKey == ""
    ensures "SHORT_MEMORY" !in env ==> LoadConfig(env).value.shortMemory == 10
    ensures "ALLOWED_GROUP_CHANNEL_IDS" !in env ==> LoadConfig(env).value.allowedGroupChannelIds == None
  {
    if "SHORT_MEMORY" !in env {
      DefaultShortMemory();
    }
  }

  /** The default `"10"` reads as 10. */
  lemma DefaultShortMemory()
    ensures ParseInt("10") == Some(10)
  {
    var t := "10";
    assert AllDigits(t);
    var one := t[..1];
    assert DigitsValue(one) == 10 * DigitsValue(one[..0]) + DigitValue('1');
    assert DigitsValue(t) == 10 * DigitsValue(one) + DigitValue('0');
    ParseIntOfDigits(t);
  }
}

=== FILE: env_service.dfy ===
/** The `.env` editor (services/env_service.py). The file is a sequence of
    lines, each still carrying its line terminator as `readlines()` returns
    it; a missing file is `None`. Writing returns the new line sequence. */
module EnvService {
  import opened Wrappers
  import opened PyStrings

  /** `read_raw_lines`: a missing file reads as no lines. */
  function ReadRawLines(file: Option<seq<string>>): seq<string> {
    match file
    case None => []
    case Some(lines) => lines
  }

  /** The `(key, value)` pair `read` takes from a line: none for a line
      that strips to nothing, starts with `#` once stripped, or has no `=`;
      otherwise the stripped line split at its first `=`. */
  function Entry(line: string): Option<(string, string)> {
    var stripped := Strip(line);
    if stripped == "" || stripped[0] == '#' then None
    else if '=' !in stripped then None
    else Some(SplitOnce(stripped, '='))
  }

  /** Which lines `read` skips, stated on the raw line. */
  lemma EntryNoneIff(line: string)
    ensures Entry(line).None? <==> AllSpace(line) || HasPrefix(Strip(line), "#") || '=' !in line
  {
    StripEmptyIff(line);
    StripKeeps(line, '=');
  }

  /** A pair is the stripped line cut at its first `=`: the key holds no
      `=`, the value may. */
  lemma EntrySplitsAtFirstEquals(line: string)
    requires Entry(line).Some?
    ensures Entry(line).value.0 + "=" + Entry(line).value.1 == Strip(line)
    ensures '=' !in Entry(line).value.0
  {
  }

  predicate IsEntryFor(line: string, key: string) {
    Entry(line).Some? && Entry(line).value.0 == key
  }

  /** One `data[key] = value` step for every line that carries a pair. */
  function FoldEntries(entries: seq<Option<(string, string)>>): map<string, string>
    decreases |entries|
  {
    if entries == [] then map[]
    else
      var data := FoldEntries(entries[..|entries| - 1]);
      match entries[|entries| - 1]
      case None => data
      case Some(kv) => data[kv.0 := kv.1]
  }

  function Entries(lines: seq<string>): (es: seq<Option<(string, string)>>)
    ensures |es| == |lines|
  {
    seq(|lines|, i requires 0 <= i < |lines| => Entry(lines[i]))
  }

  /** The dictionary `read` builds from `lines`. */
  function ParseEnv(lines: seq<string>): map<string, string> {
    FoldEntries(Entries(lines))
  }

  lemma {:induction false} FoldHasKey(entries: seq<Option<(string, string)>>, key: string)
    ensures key in FoldEntries(entries) <==>
            exists i :: 0 <= i < |entries| && entries[i].Some? && entries[i].value.0 == key
    decreases |entries|
  {
    if entries != [] {
      var init := entries[..|entries| - 1];
      FoldHasKey(init, key);
      assert forall i :: 0 <= i < |init| ==> init[i] == entries[i];
    }
  }

  lemma {:induction false} FoldLastWins(entries: seq<Option<(string, string)>>, key: string, i: nat)
    requires i < |entries| && entries[i].Some? && entries[i].value.0 == key
    requires forall j :: i < j < |entries| ==> !(entries[j].Some? && entries[j].value.0 == key)
    ensures key in FoldEntries(entries) && FoldEntries(entries)[key] == entries[i].value.1
    decreases |entries|
  {
    var init := entries[..|entries| - 1];
    if i < |init| {
      assert init[i] == entries[i];
      FoldLastWins(init, key, i);
    }
  }

  /** `read`: a key is present exactly when some line carries it. */
  lemma ParseEnvHasKey(lines: seq<string>, key: string)
    ensures key in ParseEnv(lines) <==> exists i :: 0 <= i < |lines| && IsEntryFor(lines[i], key)
  {
    var es := Entries(lines);
    FoldHasKey(es, key);
    assert forall i :: 0 <= i < |lines| ==> es[i] == Entry(lines[i]);
  }

  /** `read`: a key's value comes from the last line carrying it, so a later
      duplicate overwrites an earlier one. */
  lemma ParseEnvLastWins(lines: seq<string>, key: string, i: nat)
    requires i < |lines| && IsEntryFor(lines[i], key)
    requires forall j :: i < j < |lines| ==> !IsEntryFor(lines[j], key)
    ensures key in ParseEnv(lines) && ParseEnv(lines)[key] == Entry(lines[i]).value.1
  {
    var es := Entries(lines);
    assert forall j :: 0 <= j < |lines| ==> es[j] == Entry(lines[j]);
    FoldLastWins(es, key, i);
  }

  /** A missing file reads as the empty dictionary. */
  lemma ReadMissingFile()
    ensures ParseEnv(ReadRawLines(None)) == map[]
  {
  }

  /** `read`. */
  method Read(file: Option<seq<string>>) returns (data: map<string, string>)
    ensures data == ParseEnv(ReadRawLines(file))
  {
    data := map[];
    var lines := ReadRawLines(file);
    ghost var es := Entries(lines);
    for i := 0 to |lines|
      invariant data == FoldEntries(es[..i])
    {
      assert es[..i + 1][..i] == es[..i];
      assert es[i] == Entry(lines[i]);
      var stripped := Strip(lines[i]);
      if stripped == "" || stripped[0] == '#' {
        continue;
      }
      if '=' !in stripped {
        continue;
      }
      var kv := SplitOnce(stripped, '=');
      data := data[kv.0 := kv.1];
    }
    assert es[..|lines|] == es;
  }

  // ----- write_selected -----

  /** The updates dictionary, in insertion order. */
  type Updates = seq<(string, string)>

  /** A Python dictionary holds each key once. */
  predicate DistinctKeys(updates: Updates) {
    forall i, j :: 0 <= i < j < |updates| ==> updates[i].0 != updates[j].0
  }

  function Keys(updates: Updates): set<string> {
    set i | 0 <= i < |updates| :: updates[i].0
  }

  /** `updates[key]`. */
  function ValueOf(updates: Updates, key: string): string
    requires key in Keys(updates)
    decreases |updates|
  {
    if updates[0].0 == key then updates[0].1
    else
      assert key in Keys(updates[1..]) by {
        var i :| 0 <= i < |updates| && updates[i].0 == key;
        assert updates[1..][i - 1].0 == key;
      }
      ValueOf(updates[1..], key)
  }

  /** `str(value).replace("\n", "\\n").replace("\r", "")`. */
  function Escape(value: string): string {
    DeleteChar(ReplaceChar(value, '\n', "\\n"), '\r')
  }

  /** A written value never contains a line break, so it stays on one line. */
  lemma EscapeIsSingleLine(value: string)
    ensures '\n' !in Escape(value) && '\r' !in Escape(value)
  {
    DeleteCharAddsNothing(ReplaceChar(value, '\n', "\\n"), '\r', '\n');
  }

  /** A value without line breaks is written as it is. */
  lemma {:induction false} EscapePlain(value: string)
    requires '\n' !in value && '\r' !in value
    ensures Escape(value) == value
    decreases |value|
  {
    if value != [] {
      EscapePlain(value[1..]);
      assert ReplaceChar(value, '\n', "\\n") == [value[0]] + ReplaceChar(value[1..], '\n', "\\n");
      assert value == [value[0]] + value[1..];
    }
  }

  /** `f"{key}={value}\n"` with the value escaped. */
  function FormatLine(key: string, value: string): string {
    key + "=" + Escape(value) + "\n"
  }

  /** What the rewrite loop writes for one existing line. Its key is the
      stripped line's text before the first `=`, NOT trimmed again. */
  function RewriteLine(line: string, updates: Updates): string {
    match Entry(line)
    case None => line
    case Some(kv) =>
      if kv.0 in Keys(updates) then FormatLine(kv.0, ValueOf(updates, kv.0)) else line
  }

  /** The `existing_keys` set: for every raw line with an `=` that does not
      itself start with `#`, the text before its first `=`, trimmed. */
  function ExistingKeys(lines: seq<string>): set<string> {
    set i | 0 <= i < |lines| && '=' in lines[i] && !HasPrefix(lines[i], "#") :: Strip(SplitOnce(lines[i], '=').0)
  }

  /** The existing keys of a one-line file. */
  lemma ExistingKeysOfOne(line: string)
    requires '=' in line && !HasPrefix(line, "#")
    ensures ExistingKeys([line]) == {Strip(SplitOnce(line, '=').0)}
  {
    var k := Strip(SplitOnce(line, '=').0);
    assert [line][0] == line;
    assert k in ExistingKeys([line]);
  }

  /** The updates whose keys are absent from `existing`, in the
      dictionary's order. */
  function MissingUpdates(updates: Updates, existing: set<string>): Updates
    decreases |updates|
  {
    if updates == [] then []
    else if updates[0].0 !in existing then [updates[0]] + MissingUpdates(updates[1..], existing)
    else MissingUpdates(updates[1..], existing)
  }

  /** One `key=value` line per missing update. */
  function AppendedLines(updates: Updates, existing: set<string>): seq<string> {
    var missing := MissingUpdates(updates, existing);
    seq(|missing|, i requires 0 <= i < |missing| => FormatLine(missing[i].0, missing[i].1))
  }

  /** The old lines, each rewritten in place. */
  function RewrittenLines(lines: seq<string>, updates: Updates): seq<string> {
    seq(|lines|, i requires 0 <= i < |lines| => RewriteLine(lines[i], updates))
  }

  /** The lines `write_selected` writes for the old lines `lines`. */
  function WriteSelectedLines(lines: seq<string>, updates: Updates): seq<string> {
    RewrittenLines(lines, updates) + AppendedLines(updates, ExistingKeys(lines))
  }

  /** `write_selected`: the first loop rewrites line by line, the second
      appends the keys not seen. */
  method WriteSelected(file: Option<seq<string>>, updates: Updates) returns (newLines: seq<string>)
    requires DistinctKeys(updates)
    ensures newLines == WriteSelectedLines(ReadRawLines(file), updates)
  {
    var lines := ReadRawLines(file);
    var rewritten := RewriteLines(lines, updates);
    var existingKeys := ExistingKeys(lines);
    newLines := AppendMissing(rewritten, updates, existingKeys);
  }

  /** The first loop of `write_selected`: every old line, rewritten in place. */
  method RewriteLines(lines: seq<string>, updates: Updates) returns (newLines: seq<string>)
    ensures newLines == RewrittenLines(lines, updates)
  {
    newLines := [];
    for i := 0 to |lines|
      invariant |newLines| == i
      invariant forall k :: 0 <= k < i ==> newLines[k] == RewriteLine(lines[k], updates)
    {
      var line := lines[i];
      var stripped := Strip(line);
      var written: string;
      if stripped == "" || stripped[0] == '#' || '=' !in stripped {
        assert Entry(line).None?;
        written := line;
      } else {
        var key := SplitOnce(stripped, '=').0;
        assert Entry(line) == Some(SplitOnce(stripped, '='));
        if key in Keys(updates) {
          var value := Escape(ValueOf(updates, key));
          written := key + "=" + value + "\n";
        } else {
          written := line;
        }
      }
      assert written == RewriteLine(line, updates);
      newLines := newLines + [written];
    }
    assert newLines == RewrittenLines(lines, updates);
  }

  /** The second loop of `write_selected`: one line for each update whose
      key is not among `existingKeys`, in the dictionary's order. */
  method AppendMissing(rewritten: seq<string>, updates: Updates, existingKeys: set<string>)
    returns (newLines: seq<string>)
    ensures newLines == rewritten + AppendedLines(updates, existingKeys)
  {
    newLines := rewritten;
    for j := 0 to |updates|
      invariant newLines == rewritten + AppendedLines(updates[..j], existingKeys)
    {
      MissingUpdatesSnoc(updates[..j], updates[j], existingKeys);
      assert updates[..j + 1] == updates[..j] + [updates[j]];
      var key := updates[j].0;
      if key !in existingKeys {
        newLines := newLines + [FormatLine(key, updates[j].1)];
      }
    }
    assert updates[..|updates|] == updates;
  }

  lemma {:induction false} MissingUpdatesSnoc(updates: Updates, kv: (string, string), existing: set<string>)
    ensures MissingUpdates(updates + [kv], existing)
         == MissingUpdates(updates, existing) + (if kv.0 !in existing then [kv] else [])
    decreases |updates|
  {
    if updates == [] {
      assert MissingUpdates([kv], existing) == (if kv.0 !in existing then [kv] else []) + MissingUpdates([], existing);
    } else {
      assert (updates + [kv])[1..] == updates[1..] + [kv];
      MissingUpdatesSnoc(updates[1..], kv, existing);
    }
  }

  lemma KeysCons(updates: Updates)
    requires updates != []
    ensures Keys(updates) == {updates[0].0} + Keys(updates[1..])
  {
    var rest := updates[1..];
    forall x | x in Keys(updates) ensures x in {updates[0].0} + Keys(rest) {
      var i :| 0 <= i < |updates| && updates[i].0 == x;
      if i > 0 { assert rest[i - 1].0 == x; }
    }
    forall x | x in Keys(rest) ensures x in Keys(updates) {
      var i :| 0 <= i < |rest| && rest[i].0 == x;
      assert updates[i + 1].0 == x;
    }
  }

  lemma DistinctKeysTail(updates: Updates)
    requires updates != [] && DistinctKeys(updates)
    ensures DistinctKeys(updates[1..])
    ensures updates[0].0 !in Keys(updates[1..])
  {
    var rest := updates[1..];
    forall i, j | 0 <= i < j < |rest| ensures rest[i].0 != rest[j].0 {
      assert rest[i] == updates[i + 1] && rest[j] == updates[j + 1];
    }
    forall i | 0 <= i < |rest| ensures rest[i].0 != updates[0].0 {
      assert rest[i] == updates[i + 1];
    }
  }

  /** The missing updates are exactly the updates whose key is not an
      existing key, kept in order. */
  lemma {:induction false} MissingUpdatesMembers(updates: Updates, existing: set<string>)
    ensures forall m :: m in MissingUpdates(updates, existing) <==> m in updates && m.0 !in existing
    decreases |updates|
  {
    if updates != [] {
      MissingUpdatesMembers(updates[1..], existing);
      assert updates == [updates[0]] + updates[1..];
    }
  }

  /** One missing update per key that is not an existing key. */
  lemma {:induction false} MissingUpdatesCount(updates: Updates, existing: set<string>)
    requires DistinctKeys(updates)
    ensures |MissingUpdates(updates, existing)| == |Keys(updates) - existing|
    decreases |updates|
  {
    if updates != [] {
      var rest := updates[1..];
      var k := updates[0].0;
      DistinctKeysTail(updates);
      MissingUpdatesCount(rest, existing);
      KeysCons(updates);
      var missingRest := Keys(rest) - existing;
      if k !in existing {
        assert MissingUpdates(updates, existing) == [updates[0]] + MissingUpdates(rest, existing);
        assert k !in missingRest;
        assert Keys(updates) - existing == missingRest + {k};
        assert |missingRest + {k}| == |missingRest| + 1;
      } else {
        assert MissingUpdates(updates, existing) == MissingUpdates(rest, existing);
        assert Keys(updates) - existing == missingRest;
      }
    }
  }

  /** Shape of the written file: the old lines rewritten in place, then the
      appended keys; comment, blank and `=`-less lines are kept verbatim in
      their positions, an updated key's line becomes `key=escaped value`,
      every other line is kept. */
  lemma WriteSelectedShape(lines: seq<string>, updates: Updates)
    requires DistinctKeys(updates)
    ensures var out := WriteSelectedLines(lines, updates);
      && |out| == |lines| + |Keys(updates) - ExistingKeys(lines)|
      && out[|lines|..] == AppendedLines(updates, ExistingKeys(lines))
      && (forall m :: m in MissingUpdates(updates, ExistingKeys(lines)) <==> m in updates && m.0 !in ExistingKeys(lines))
      && (forall i :: 0 <= i < |lines| && Entry(lines[i]).None? ==> out[i] == lines[i])
      && (forall i :: 0 <= i < |lines| && Entry(lines[i]).Some? && Entry(lines[i]).value.0 in Keys(updates) ==>
            out[i] == FormatLine(Entry(lines[i]).value.0, ValueOf(updates, Entry(lines[i]).value.0)))
      && (forall i :: 0 <= i < |lines| && Entry(lines[i]).Some? && Entry(lines[i]).value.0 !in Keys(updates) ==>
            out[i] == lines[i])
  {
    MissingUpdatesCount(updates, ExistingKeys(lines));
    MissingUpdatesMembers(updates, ExistingKeys(lines));
  }

  /** With nothing to update, the file is written back unchanged. */
  lemma WriteSelectedNoUpdates(lines: seq<string>)
    ensures WriteSelectedLines(lines, []) == lines
  {
    var out := WriteSelectedLines(lines, []);
    assert |out| == |lines|;
    forall i | 0 <= i < |lines| ensures out[i] == lines[i] {
      assert Keys([]) == {};
    }
  }

  /** `"FOO = x\n".strip()` is `"FOO = x"`, whose key is `"FOO "`. */
  lemma SpacedLineEntry()
    ensures Strip("FOO = x\n") == "FOO = x"
    ensures Entry("FOO = x\n") == Some(("FOO ", " x"))
  {
    var line := "FOO = x\n";
    var t := "FOO = x";
    assert !IsSpace(line[0]);
    assert StripLeft(line) == line;
    assert line[..|line| - 1] == t;
    assert StripRight(line) == StripRight(t);
    assert !IsSpace(t[|t| - 1]);
    assert StripRight(t) == t;
    assert t[..4] == "FOO ";
    SplitOnceAt(t, '=', 4);
  }

  /** The set of existing keys of `["FOO = x\n"]` trims the key to `"FOO"`. */
  lemma SpacedLineExistingKey()
    ensures ExistingKeys(["FOO = x\n"]) == {"FOO"}
  {
    var line := "FOO = x\n";
    assert line[..4] == "FOO ";
    SplitOnceAt(line, '=', 4);
    var k := "FOO ";
    assert !IsSpace(k[0]);
    assert StripLeft(k) == k;
    assert k[..|k| - 1] == "FOO";
    assert StripRight(k) == StripRight("FOO");
    assert StripRight("FOO") == "FOO";
    assert Strip(k) == "FOO";
    assert !HasPrefix(line, "#");
    ExistingKeysOfOne(line);
  }

  /** The line `FOO = x` is left alone by an update of `FOO`: the rewrite
      loop sees the key `FOO ` (with the space), while the set of existing
      keys holds the trimmed `FOO`, so the update is neither written in
      place nor appended. */
  lemma SpacedKeyUpdateIsLost()
    ensures WriteSelectedLines(["FOO = x\n"], [("FOO", "y")]) == ["FOO = x\n"]
  {
    var line := "FOO = x\n";
    var updates := [("FOO", "y")];
    SpacedLineEntry();
    SpacedLineExistingKey();
    assert updates[0].0 == "FOO";
    assert Keys(updates) == {"FOO"};
    assert "FOO " !in Keys(updates);
    assert RewriteLine(line, updates) == line;
    assert MissingUpdates(updates, {"FOO"}) == [];
    assert AppendedLines(updates, {"FOO"}) == [];
  }
}

=== FILE: group_chat.dfy ===
/** Mentions in group channels (handlers/group_chat.py). The model's reply
    is an input; the links the search tool holds on entry are those the
    reply's generation left behind. */
module GroupChat {
  import opened Wrappers
  import opened PyStrings
  import opened SlackApi
  import opened AgentLlm

  const WebSourcesHeader: string := "\U{1F517} *Web Sources:*\n"

  /** The event fields the handler reads: `bot_id`, `channel`, `user` and
      the optional `text`. */
  datatype GroupEvent = GroupEvent(botId: Option<string>, channel: string, user: string, text: Option<string>)

  /** `profile.get("real_name") or "User"`, and `"User"` when the lookup
      raised. */
  function GroupUsername(lookup: UserLookup): string {
    if lookup.Profile? && Truthy(lookup.realName) then lookup.realName.value else FallbackUsername
  }

  /** The name is never empty and comes from the real name alone: the
      display name and the account name play no part. */
  lemma GroupUsernameSpec(lookup: UserLookup, displayName: Option<string>, name: Option<string>)
    ensures GroupUsername(lookup) != ""
    ensures lookup.Profile? && Truthy(lookup.realName) ==> GroupUsername(lookup) == lookup.realName.value
    ensures !(lookup.Profile? && Truthy(lookup.realName)) ==> GroupUsername(lookup) == FallbackUsername
    ensures lookup.Profile? ==>
              GroupUsername(lookup) == GroupUsername(Profile(lookup.realName, displayName, name))
  {
  }

  /** The text handed to the model: `"{username}: {user_input}"`. */
  function Prompt(lookup: UserLookup, text: Option<string>): string {
    GroupUsername(lookup) + ": " + MentionText(text.GetOr(""))
  }

  /** The speaker can be read back from the prompt: when the name has no
      colon, splitting at the first colon gives the name and, after one
      space, the cleaned message. */
  lemma PromptSplits(lookup: UserLookup, text: Option<string>)
    requires ':' !in GroupUsername(lookup)
    ensures SplitOnce(Prompt(lookup, text), ':') == (GroupUsername(lookup), " " + MentionText(text.GetOr("")))
  {
    var u := GroupUsername(lookup);
    var m := MentionText(text.GetOr(""));
    var p := Prompt(lookup, text);
    assert p == u + ":" + (" " + m);
    assert p[|u|] == ':';
    assert p[..|u|] == u;
    assert p[|u| + 1..] == " " + m;
    SplitOnceAt(p, ':', |u|);
  }

  /** `f"• <{link}|{link}>"`: a Slack link showing the URL itself. */
  function LinkLine(link: Option<string>): string {
    "\U{2022} <" + Show(link) + "|" + Show(link) + ">"
  }

  /** The blocks of an answer: the reply as a section, then a context block
      listing the sources under `WebSourcesHeader` when there are any. */
  function ReplyBlocks(reply: string, links: seq<Option<string>>): seq<Block> {
    SourcedBlocks(reply, WebSourcesHeader, LinkLines(links, LinkLine))
  }

  /** Without sources the answer is the reply alone; with sources the
      context block is the header followed by one line per link, in order,
      which splitting at line breaks recovers when no link holds one. */
  lemma ReplyBlocksSpec(reply: string, links: seq<Option<string>>)
    ensures links == [] ==> ReplyBlocks(reply, links) == [Section(reply)]
    ensures links != [] ==>
              var b := ReplyBlocks(reply, links);
              |b| == 2 && b[0] == Section(reply) && b[1].Context? && HasPrefix(b[1].text, WebSourcesHeader)
    ensures links != [] && (forall k :: 0 <= k < |links| ==> '\n' !in Show(links[k])) ==>
              var t := ReplyBlocks(reply, links)[1].text;
              Split(t[|WebSourcesHeader|..], '\n') == LinkLines(links, LinkLine)
  {
    var lines := LinkLines(links, LinkLine);
    if forall k :: 0 <= k < |links| ==> '\n' !in Show(links[k]) {
      forall k | 0 <= k < |lines|
        ensures '\n' !in lines[k]
      {
        assert lines[k] == "\U{2022} <" + Show(links[k]) + "|" + Show(links[k]) + ">";
      }
    }
    SourcedBlocksSpec(reply, WebSourcesHeader, lines);
  }

  class GroupChatHandler {
    const llmService: AgentLlmService

    constructor (llmService: AgentLlmService)
      ensures this.llmService == llmService
    {
      this.llmService := llmService;
    }

    /** `handle`. Returns the model call made (conversation id and text),
        or `None` for an event sent by a bot, which is ignored. `reply` is
        what that call returned, or the message of what it raised; when it
        raised, nothing is said and the links are left alone. */
    method Handle(event: GroupEvent, lookup: UserLookup, reply: Result<Option<string>, string>, outbox: Outbox)
      returns (llmCall: Option<(string, string)>)
      modifies outbox, llmService.serperWebSearchTool
      ensures event.botId.Some? || reply.Failure? ==>
                outbox.log == old(outbox.log)
                && llmService.serperWebSearchTool.latestLinks == old(llmService.serperWebSearchTool.latestLinks)
      ensures event.botId.Some? ==> llmCall.None?
      ensures event.botId.None? ==> llmCall == Some((event.channel, Prompt(lookup, event.text)))
      ensures event.botId.None? && reply.Success? && !Substantive(reply.value) ==>
                outbox.log == old(outbox.log) + [Sent.Say(EmptyReplyText, None)]
                && llmService.serperWebSearchTool.latestLinks == old(llmService.serperWebSearchTool.latestLinks)
      ensures event.botId.None? && reply.Success? && Substantive(reply.value) ==>
                outbox.log == old(outbox.log)
                              + [Sent.Say(reply.value.value,
                                          Some(ReplyBlocks(reply.value.value, old(llmService.serperWebSearchTool.latestLinks))))]
                && llmService.serperWebSearchTool.latestLinks == []
    {
      if event.botId.Some? {
        return None;
      }
      var username := GroupUsername(lookup);
      var rawText := event.text.GetOr("");
      var userInput := MentionText(rawText);
      llmCall := Some((event.channel, username + ": " + userInput));
      if reply.Failure? {
        return;
      }
      var answer := reply.value;
      var tool := llmService.serperWebSearchTool;
      if answer.Some? && answer.value != "" && Strip(answer.value) != "" {
        var serperLinks := tool.latestLinks;
        var blocks := [Section(answer.value)];
        if serperLinks != [] {
          var linksText := Join(LinkLines(serperLinks, LinkLine), "\n");
          blocks := blocks + [Context(WebSourcesHeader + linksText)];
          tool.latestLinks := [];
        }
        assert blocks == ReplyBlocks(answer.value, serperLinks);
        outbox.Say(answer.value, Some(blocks));
      } else {
        outbox.Say(EmptyReplyText, None);
      }
    }
  }
}

=== FILE: http.dfy ===
/** What an HTTP call made through `requests` ends in, as the tools see
    it: a response with a status code, or an exception with its text. */
module Http {
  datatype HttpOutcome = Responded(status: int) | Raised(message: string)
}

=== FILE: music_generation_tool.dfy ===
/** The music tool (tools/music_generation_tool.py). The POST to the music
    engine is not performed: its outcome is a parameter, and the request is
    returned. */
module MusicGeneration {
  import opened Wrappers
  import opened PyStrings
  import opened Http

  const DefaultApiUrl: string := "http://127.0.0.1:5001"
  const MaxDuration: int := 20
  const DefaultDuration: int := 10

  /** `getattr(config, "MUSIC_API_URL", default).rstrip("/")`; `None` when
      the config object has no such attribute. */
  function ApiUrl(musicApiUrl: Option<string>): (r: string)
    ensures r == [] || r[|r| - 1] != '/'
  {
    StripRightChar(musicApiUrl.GetOr(DefaultApiUrl), '/')
  }

  /** Without the attribute the tool talks to the default local server;
      with it, the configured URL is used minus its trailing slashes. */
  lemma ApiUrlSpec(musicApiUrl: Option<string>)
    ensures musicApiUrl.None? ==> ApiUrl(musicApiUrl) == DefaultApiUrl
    ensures musicApiUrl.Some? ==> HasPrefix(musicApiUrl.value, ApiUrl(musicApiUrl))
    ensures musicApiUrl.Some? ==>
              forall i :: |ApiUrl(musicApiUrl)| <= i < |musicApiUrl.value| ==> musicApiUrl.value[i] == '/'
  {
    if musicApiUrl.None? {
      assert DefaultApiUrl[|DefaultApiUrl| - 1] == '1';
    }
  }

  /** The duration actually requested: longer requests are cut to 20 s. */
  function ClampDuration(duration: int): (d: int)
    ensures d <= MaxDuration
    ensures duration <= MaxDuration ==> d == duration
    ensures duration > MaxDuration ==> d == MaxDuration
  {
    if duration > MaxDuration then MaxDuration else duration
  }

  /** The POST body and where it goes. */
  datatype MusicRequest = MusicRequest(url: string, prompt: string, duration: int)

  /** The answer on status 200: it names the prompt and the clamped duration. */
  function StartedMessage(prompt: string, duration: int): string {
    "Music generation for '" + prompt + "' has started (" + IntToString(duration)
      + " seconds). I will upload the .wav file here as soon as it's ready!"
  }

  /** The started message quotes the prompt verbatim and then states the
      duration in decimal, so the duration can be read back from it. */
  lemma StartedMessageMentions(prompt: string, duration: int)
    ensures OccursAt(StartedMessage(prompt, duration), prompt, 22)
    ensures OccursAt(StartedMessage(prompt, duration), IntToString(duration), 37 + |prompt|)
    ensures ParseInt(IntToString(duration)) == Some(duration)
  {
    var head := "Music generation for '";
    var mid := "' has started (";
    var tail := " seconds). I will upload the .wav file here as soon as it's ready!";
    var msg := StartedMessage(prompt, duration);
    var n := IntToString(duration);
    assert |head| == 22 && |mid| == 15;
    assert msg == head + prompt + mid + n + tail;
    assert msg[22..22 + |prompt|] == prompt;
    assert msg[37 + |prompt|..37 + |prompt| + |n|] == n;
    ParseIntOfIntToString(duration);
  }

  class MusicGenerationTool {
    const apiUrl: string
    var isGenerating: bool

    constructor (musicApiUrl: Option<string>)
      ensures apiUrl == ApiUrl(musicApiUrl) && !isGenerating
    {
      apiUrl := ApiUrl(musicApiUrl);
      isGenerating := false;
    }

    /** `generate_music`: raise the busy flag, clamp the duration, POST, and
        lower the flag again unless the engine accepted the job. `duration`
        is `None` when the caller left it out, and 10 seconds are asked for. */
    method GenerateMusic(prompt: string, duration: Option<int>, outcome: HttpOutcome)
      returns (request: MusicRequest, busyWhenSent: bool, reply: string)
      modifies this
      ensures request == MusicRequest(apiUrl + "/generate", prompt, ClampDuration(duration.GetOr(DefaultDuration)))
      ensures busyWhenSent
      ensures outcome == Responded(200) ==> isGenerating && reply == StartedMessage(prompt, ClampDuration(duration.GetOr(DefaultDuration)))
      ensures outcome.Responded? && outcome.status != 200 ==>
                !isGenerating && reply == "Music Engine error: " + IntToString(outcome.status)
      ensures outcome.Raised? ==>
                !isGenerating && reply == "Error connecting to Music Engine: " + outcome.message
    {
      isGenerating := true;
      var d := duration.GetOr(DefaultDuration);
      if d > 20 {
        d := 20;
      }
      request := MusicRequest(apiUrl + "/generate", prompt, d);
      busyWhenSent := isGenerating;
      match outcome
      case Raised(message) =>
        isGenerating := false;
        reply := "Error connecting to Music Engine: " + message;
      case Responded(status) =>
        if status != 200 {
          isGenerating := false;
          reply := "Music Engine error: " + IntToString(status);
        } else {
          reply := StartedMessage(prompt, d);
        }
    }
  }
}

=== FILE: private_chat.dfy ===
/** Direct messages (handlers/private_chat.py). The model's reply is an
    input; the links the search tool holds on entry are those the reply's
    generation left behind. */
module PrivateChat {
  import opened Wrappers
  import opened PyStrings
  import opened SlackApi
  import opened AgentLlm

  const DirectMessage: string := "im"
  const SourcesHeader: string := "*Sources:*\n"

  /** The event fields the handler reads: `channel_type`, `bot_id`,
      `channel` and the optional `text`. */
  datatype PrivateEvent = PrivateEvent(channelType: Option<string>, botId: Option<string>, channel: string, text: Option<string>)

  /** A direct message not sent by a bot (an empty `bot_id` counts as none). */
  predicate Handled(event: PrivateEvent) {
    event.channelType == Some(DirectMessage) && !Truthy(event.botId)
  }

  /** `f"• <{link}>"`. */
  function LinkLine(link: Option<string>): string {
    "\U{2022} <" + Show(link) + ">"
  }

  /** The blocks of an answer: the reply as a section, then a context block
      listing the sources under `SourcesHeader` when there are any. */
  function ReplyBlocks(reply: string, links: seq<Option<string>>): seq<Block> {
    SourcedBlocks(reply, SourcesHeader, LinkLines(links, LinkLine))
  }

  /** Without sources the answer is the reply alone; with sources the
      context block is the header followed by one line per link, in order,
      which splitting at line breaks recovers when no link holds one. */
  lemma ReplyBlocksSpec(reply: string, links: seq<Option<string>>)
    ensures links == [] ==> ReplyBlocks(reply, links) == [Section(reply)]
    ensures links != [] ==>
              var b := ReplyBlocks(reply, links);
              |b| == 2 && b[0] == Section(reply) && b[1].Context? && HasPrefix(b[1].text, SourcesHeader)
    ensures links != [] && (forall k :: 0 <= k < |links| ==> '\n' !in Show(links[k])) ==>
              var t := ReplyBlocks(reply, links)[1].text;
              Split(t[|SourcesHeader|..], '\n') == LinkLines(links, LinkLine)
  {
    var lines := LinkLines(links, LinkLine);
    if forall k :: 0 <= k < |links| ==> '\n' !in Show(links[k]) {
      forall k | 0 <= k < |lines|
        ensures '\n' !in lines[k]
      {
        assert lines[k] == "\U{2022} <" + Show(links[k]) + ">";
      }
    }
    SourcedBlocksSpec(reply, SourcesHeader, lines);
  }

  class PrivateChatHandler {
    const llmService: AgentLlmService

    constructor (llmService: AgentLlmService)
      ensures this.llmService == llmService
    {
      this.llmService := llmService;
    }

    /** `handle`. Returns the model call made (conversation id and the raw
        text), or `None` when the event is not handled and nothing happens.
        `reply` is what that call returned, or the message of what it
        raised; when it raised, nothing is said and the links are left
        alone. */
    method Handle(event: PrivateEvent, reply: Result<Option<string>, string>, outbox: Outbox)
      returns (llmCall: Option<(string, string)>)
      modifies outbox, llmService.serperWebSearchTool
      ensures !Handled(event) || reply.Failure? ==>
                outbox.log == old(outbox.log)
                && llmService.serperWebSearchTool.latestLinks == old(llmService.serperWebSearchTool.latestLinks)
      ensures !Handled(event) ==> llmCall.None?
      ensures Handled(event) ==> llmCall == Some((event.channel, event.text.GetOr("")))
      ensures Handled(event) && reply.Success? && !Substantive(reply.value) ==>
                outbox.log == old(outbox.log) + [Sent.Say(EmptyReplyText, None)]
                && llmService.serperWebSearchTool.latestLinks == old(llmService.serperWebSearchTool.latestLinks)
      ensures Handled(event) && reply.Success? && Substantive(reply.value) ==>
                outbox.log == old(outbox.log)
                              + [Sent.Say(reply.value.value,
                                          Some(ReplyBlocks(reply.value.value, old(llmService.serperWebSearchTool.latestLinks))))]
                && llmService.serperWebSearchTool.latestLinks == []
    {
      if event.channelType == Some(DirectMessage) && !(event.botId.Some? && event.botId.value != "") {
        var userInput := event.text.GetOr("");
        llmCall := Some((event.channel, userInput));
        if reply.Failure? {
          return;
        }
        var answer := reply.value;
        var tool := llmService.serperWebSearchTool;
        if answer.Some? && answer.value != "" && Strip(answer.value) != "" {
          var serperLinks := tool.latestLinks;
          var blocks := [Section(answer.value)];
          if serperLinks != [] {
            var linksText := Join(LinkLines(serperLinks, LinkLine), "\n");
            blocks := blocks + [Context(SourcesHeader + linksText)];
            tool.latestLinks := [];
          }
          assert blocks == ReplyBlocks(answer.value, serperLinks);
          outbox.Say(answer.value, Some(blocks));
        } else {
          outbox.Say(EmptyReplyText, None);
        }
      } else {
        llmCall := None;
      }
    }
  }
}

=== FILE: py_strings.dfy ===
/** The few Python `str` operations the bot relies on, stated over
    `seq<char>`: `strip`, `rstrip(c)`, `split(sep)`, `split(sep, 1)`,
    `sep.join`, `lower`, `replace`, `in`, `int(...)` and `str(int)`. */
module PyStrings {
  import opened Wrappers

  /** The characters for which Python's `str.isspace()` holds; `strip()`
      with no argument removes exactly these from both ends. */
  predicate IsSpace(c: char) {
    || ('\t' <= c <= '\r')
    || ('\U{1C}' <= c <= '\U{1F}')
    || c == ' ' || c == '\U{85}' || c == '\U{A0}' || c == '\U{1680}'
    || ('\U{2000}' <= c <= '\U{200A}')
    || c == '\U{2028}' || c == '\U{2029}' || c == '\U{202F}' || c == '\U{205F}' || c == '\U{3000}'
  }

  predicate AllSpace(s: string) {
    forall i :: 0 <= i < |s| ==> IsSpace(s[i])
  }

  /** No whitespace at either end: what `strip()` leaves. */
  predicate Trimmed(s: string) {
    s == [] || (!IsSpace(s[0]) && !IsSpace(s[|s| - 1]))
  }

  /** `s.lstrip()`: the suffix of `s` left once leading whitespace is gone. */
  function StripLeft(s: string): (r: string)
    ensures |r| <= |s|
    ensures r == [] || !IsSpace(r[0])
  {
    if |s| > 0 && IsSpace(s[0]) then StripLeft(s[1..]) else s
  }

  /** What `lstrip()` keeps is a suffix of the input. */
  lemma {:induction false} StripLeftIsSuffix(s: string)
    ensures StripLeft(s) == s[|s| - |StripLeft(s)|..]
    decreases |s|
  {
    if |s| > 0 && IsSpace(s[0]) {
      StripLeftIsSuffix(s[1..]);
    }
  }

  /** `lstrip()` removes whitespace only. */
  lemma {:induction false} StripLeftRemovesSpace(s: string)
    ensures AllSpace(s[..|s| - |StripLeft(s)|])
    decreases |s|
  {
    if |s| > 0 && IsSpace(s[0]) {
      StripLeftRemovesSpace(s[1..]);
      var r := StripLeft(s);
      assert s[..|s| - |r|] == [s[0]] + s[1..][..|s| - 1 - |r|];
    }
  }

  /** `s.rstrip()`: the prefix of `s` left once trailing whitespace is gone. */
  function StripRight(s: string): (r: string)
    ensures |r| <= |s|
    ensures r == [] || !IsSpace(r[|r| - 1])
  {
    if |s| > 0 && IsSpace(s[|s| - 1]) then StripRight(s[..|s| - 1]) else s
  }

  /** What `rstrip()` keeps is a prefix of the input. */
  lemma {:induction false} StripRightIsPrefix(s: string)
    ensures StripRight(s) == s[..|StripRight(s)|]
    decreases |s|
  {
    if |s| > 0 && IsSpace(s[|s| - 1]) {
      StripRightIsPrefix(s[..|s| - 1]);
    }
  }

  /** `rstrip()` removes whitespace only. */
  lemma {:induction false} StripRightRemovesSpace(s: string)
    ensures AllSpace(s[|StripRight(s)|..])
    decreases |s|
  {
    if |s| > 0 && IsSpace(s[|s| - 1]) {
      StripRightRemovesSpace(s[..|s| - 1]);
      var r := StripRight(s);
      assert s[|r|..] == s[..|s| - 1][|r|..] + [s[|s| - 1]];
    }
  }

  /** `s.strip()`. */
  function Strip(s: string): (r: string)
    ensures Trimmed(r)
  {
    StripRightIsPrefix(StripLeft(s));
    StripRight(StripLeft(s))
  }

  /** Where `Strip(s)` starts inside `s`. */
  function StripStart(s: string): nat
    ensures StripStart(s) + |Strip(s)| <= |s|
  {
    |s| - |StripLeft(s)|
  }

  /** A prefix `r` of a suffix `l` of `s` cuts `s` into three consecutive
      slices, the last of which is what `l` holds past `r`. */
  lemma PrefixOfSuffix(s: string, l: string, r: string)
    requires |l| <= |s| && l == s[|s| - |l|..]
    requires |r| <= |l| && r == l[..|r|]
    ensures s == s[..|s| - |l|] + r + s[|s| - |l| + |r|..]
    ensures s[|s| - |l| + |r|..] == l[|r|..]
  {
    var i := |s| - |l|;
    assert r == s[i..i + |r|];
    assert s == s[..i] + s[i..i + |r|] + s[i + |r|..];
  }

  /** `strip()` cuts a string in three: the ends it drops and the middle it keeps. */
  lemma StripSplits(s: string)
    ensures var i := StripStart(s);
      && s == s[..i] + Strip(s) + s[i + |Strip(s)|..]
      && s[i + |Strip(s)|..] == StripLeft(s)[|Strip(s)|..]
  {
    var l := StripLeft(s);
    StripLeftIsSuffix(s);
    StripRightIsPrefix(l);
    var r := StripRight(l);
    PrefixOfSuffix(s, l, r);
    assert StripStart(s) == |s| - |l| && Strip(s) == r;
  }

  /** `strip()` removes whitespace from the two ends and nothing else. */
  lemma StripShape(s: string)
    ensures var i := StripStart(s);
      && s == s[..i] + Strip(s) + s[i + |Strip(s)|..]
      && AllSpace(s[..i]) && AllSpace(s[i + |Strip(s)|..])
  {
    StripSplits(s);
    StripLeftRemovesSpace(s);
    StripRightRemovesSpace(StripLeft(s));
  }

  /** A string strips to nothing exactly when it is all whitespace. */
  lemma StripEmptyIff(s: string)
    ensures Strip(s) == [] <==> AllSpace(s)
  {
    StripShape(s);
    var i := StripStart(s);
    if Strip(s) == [] {
      assert s == s[..i] + s[i..];
    } else {
      assert s[i] == Strip(s)[0];
    }
  }

  /** Characters other than whitespace survive `strip()`, and no others appear. */
  lemma StripKeeps(s: string, c: char)
    requires !IsSpace(c)
    ensures c in Strip(s) <==> c in s
  {
    StripShape(s);
    var i := StripStart(s);
    var r := Strip(s);
    var front, back := s[..i], s[i + |r|..];
    assert c !in front;
    assert c !in back;
    assert s == front + r + back;
  }

  /** `strip()` leaves an already trimmed string alone. */
  lemma StripTrimmed(s: string)
    requires Trimmed(s)
    ensures Strip(s) == s
  {
    StripShape(s);
    var i := StripStart(s);
    var r := Strip(s);
    if s != [] {
      assert i == 0 && i + |r| == |s|;
    }
  }

  /** `s.rstrip(c)` for a one-character argument. */
  function StripRightChar(s: string, c: char): (r: string)
    ensures |r| <= |s| && r == s[..|r|]
    ensures forall i :: |r| <= i < |s| ==> s[i] == c
    ensures r == [] || r[|r| - 1] != c
  {
    if |s| > 0 && s[|s| - 1] == c then StripRightChar(s[..|s| - 1], c) else s
  }

  predicate HasPrefix(s: string, p: string) {
    |p| <= |s| && s[..|p|] == p
  }

  predicate HasSuffix(s: string, p: string) {
    |p| <= |s| && s[|s| - |p|..] == p
  }

  /** `sub` occurs in `s` starting at position `i`. */
  predicate OccursAt(s: string, sub: string, i: int) {
    0 <= i <= |s| - |sub| && s[i..i + |sub|] == sub
  }

  /** Python's `sub in s`, computed by trying each start position. */
  function Contains(s: string, sub: string): bool
    decreases |s|
  {
    HasPrefix(s, sub) || (|s| > 0 && Contains(s[1..], sub))
  }

  /** `Contains` agrees with the textbook definition of a substring. */
  lemma {:induction false} ContainsIff(s: string, sub: string)
    ensures Contains(s, sub) <==> exists i :: OccursAt(s, sub, i)
    decreases |s|
  {
    if HasPrefix(s, sub) {
      assert OccursAt(s, sub, 0);
    } else {
      if exists i :: OccursAt(s, sub, i) {
        var i :| OccursAt(s, sub, i);
        assert i != 0;
        assert OccursAt(s[1..], sub, i - 1);
        ContainsIff(s[1..], sub);
      }
      if |s| > 0 && Contains(s[1..], sub) {
        ContainsIff(s[1..], sub);
        var i :| OccursAt(s[1..], sub, i);
        assert OccursAt(s, sub, i + 1);
      }
    }
  }

  function LowerChar(c: char): char {
    if 'A' <= c <= 'Z' then (c as int + 32) as char else c
  }

  /** `s.lower()`, restricted to the ASCII letters. */
  function Lower(s: string): (r: string)
    ensures |r| == |s|
  {
    seq(|s|, i requires 0 <= i < |s| => LowerChar(s[i]))
  }

  /** The first occurrence of `c` is the only position with `c` before
      which there is none. */
  lemma IndexOfUnique(s: string, c: char, k: nat)
    requires k < |s| && s[k] == c && c !in s[..k]
    ensures IndexOf(s, c) == k
  {
  }

  /** Position of the first `c` in `s` (Python's `s.index(c)`). */
  function IndexOf(s: string, c: char): (i: nat)
    requires c in s
    ensures i < |s| && s[i] == c && c !in s[..i]
  {
    if s[0] == c then 0
    else
      var j := IndexOf(s[1..], c);
      assert s[..j + 1] == [s[0]] + s[1..][..j];
      j + 1
  }

  /** `s.split(sep)` for a one-character separator: never empty, and no
      piece holds the separator. */
  function Split(s: string, sep: char): (r: seq<string>)
    ensures |r| >= 1
    ensures forall k :: 0 <= k < |r| ==> sep !in r[k]
    decreases |s|
  {
    if sep !in s then [s]
    else
      var i := IndexOf(s, sep);
      [s[..i]] + Split(s[i + 1..], sep)
  }

  /** `sep.join(pieces)`. */
  function Join(pieces: seq<string>, sep: string): string
    decreases |pieces|
  {
    if |pieces| == 0 then ""
    else if |pieces| == 1 then pieces[0]
    else pieces[0] + sep + Join(pieces[1..], sep)
  }

  /** A join starts with its first piece. */
  lemma JoinStartsWithFirst(pieces: seq<string>, sep: string)
    requires |pieces| >= 1
    ensures HasPrefix(Join(pieces, sep), pieces[0])
  {
    if |pieces| > 1 {
      var j := Join(pieces, sep);
      assert j == pieces[0] + (sep + Join(pieces[1..], sep));
      assert j[..|pieces[0]|] == pieces[0];
    }
  }

  /** Joining separator-free pieces and splitting again gives back the pieces. */
  lemma {:induction false} SplitJoin(pieces: seq<string>, sep: char)
    requires |pieces| >= 1
    requires forall k :: 0 <= k < |pieces| ==> sep !in pieces[k]
    ensures Split(Join(pieces, [sep]), sep) == pieces
    decreases |pieces|
  {
    if |pieces| > 1 {
      var p := pieces[0];
      var rest := Join(pieces[1..], [sep]);
      var s := Join(pieces, [sep]);
      assert s == p + [sep] + rest;
      assert s[|p|] == sep;
      var i := IndexOf(s, sep);
      assert s[..i] == p;
      assert s[i + 1..] == rest;
      SplitJoin(pieces[1..], sep);
    } else {
      assert Join(pieces, [sep]) == pieces[0];
    }
  }

  /** `s.split(sep, 1)` when `sep` occurs in `s`: the text before the first
      separator and the text after it. */
  function SplitOnce(s: string, sep: char): (r: (string, string))
    requires sep in s
    ensures r.0 + [sep] + r.1 == s
    ensures sep !in r.0
  {
    var i := IndexOf(s, sep);
    assert s == s[..i] + [sep] + s[i + 1..];
    (s[..i], s[i + 1..])
  }

  /** Splitting at a known first separator. */
  lemma SplitOnceAt(s: string, sep: char, k: nat)
    requires k < |s| && s[k] == sep && sep !in s[..k]
    ensures SplitOnce(s, sep) == (s[..k], s[k + 1..])
  {
    IndexOfUnique(s, sep, k);
  }

  /** `s.split(c)[-1]`: the last piece of the split, which is the text
      after the last `c` (all of `s` when there is none). */
  function AfterLast(s: string, c: char): string
    decreases |s|
  {
    if c !in s then s else AfterLast(s[IndexOf(s, c) + 1..], c)
  }

  /** `AfterLast` is the longest suffix of `s` free of `c`. */
  lemma {:induction false} AfterLastSpec(s: string, c: char)
    ensures c !in AfterLast(s, c)
    ensures HasSuffix(s, AfterLast(s, c))
    ensures |AfterLast(s, c)| < |s| ==> s[|s| - |AfterLast(s, c)| - 1] == c
    ensures c !in s ==> AfterLast(s, c) == s
    decreases |s|
  {
    if c in s {
      var i := IndexOf(s, c);
      var t := s[i + 1..];
      var r := AfterLast(t, c);
      assert AfterLast(s, c) == r;
      AfterLastSpec(t, c);
      SuffixPastSeparator(s, i, t, r, c);
    }
  }

  /** A suffix of the text after position `i`, preceded there by `c` or by
      the character at `i`, is a suffix of the whole text preceded by `c`
      when `s[i]` is `c`. */
  lemma SuffixPastSeparator(s: string, i: nat, t: string, r: string, c: char)
    requires i < |s| && s[i] == c && t == s[i + 1..]
    requires HasSuffix(t, r)
    requires |r| < |t| ==> t[|t| - |r| - 1] == c
    ensures HasSuffix(s, r) && s[|s| - |r| - 1] == c
  {
    assert s[|s| - |r|..] == t[|t| - |r|..];
  }

  /** `s.replace(c, repl)` for a one-character pattern. */
  function ReplaceChar(s: string, c: char, repl: string): (r: string)
    ensures c !in repl ==> c !in r
  {
    if s == [] then ""
    else (if s[0] == c then repl else [s[0]]) + ReplaceChar(s[1..], c, repl)
  }

  /** `s.replace(c, "")`. */
  function DeleteChar(s: string, c: char): (r: string)
    ensures c !in r
  {
    if s == [] then ""
    else (if s[0] == c then "" else [s[0]]) + DeleteChar(s[1..], c)
  }

  /** Deleting one character brings in no other. */
  lemma {:induction false} DeleteCharAddsNothing(s: string, c: char, d: char)
    requires d !in s
    ensures d !in DeleteChar(s, c)
    decreases |s|
  {
    if s != [] {
      assert s == [s[0]] + s[1..];
      DeleteCharAddsNothing(s[1..], c, d);
    }
  }

  /** How an f-string renders an optional string: `None` prints as `None`. */
  function Show(o: Option<string>): string {
    match o
    case None => "None"
    case Some(s) => s
  }

  predicate IsDigit(c: char) {
    '0' <= c <= '9'
  }

  predicate AllDigits(s: string) {
    forall i :: 0 <= i < |s| ==> IsDigit(s[i])
  }

  function DigitChar(d: nat): (c: char)
    requires d < 10
    ensures IsDigit(c)
  {
    ('0' as int + d) as char
  }

  function DigitValue(c: char): nat
    requires IsDigit(c)
  {
    c as int - '0' as int
  }

  /** `str(n)` for a natural number. */
  function NatToString(n: nat): (r: string)
    ensures |r| >= 1 && AllDigits(r)
    decreases n
  {
    if n < 10 then [DigitChar(n)] else NatToString(n / 10) + [DigitChar(n % 10)]
  }

  /** `str(i)`. */
  function IntToString(i: int): string {
    if i < 0 then "-" + NatToString(-i) else NatToString(i)
  }

  /** The value of a string of decimal digits. */
  function DigitsValue(s: string): nat
    requires AllDigits(s)
    decreases |s|
  {
    if s == [] then 0 else 10 * DigitsValue(s[..|s| - 1]) + DigitValue(s[|s| - 1])
  }

  function ParseNat(s: string): Option<nat> {
    if s != [] && AllDigits(s) then Some(DigitsValue(s)) else None
  }

  /** Python's `int(s)` in base 10: surrounding whitespace is ignored, one
      optional sign, then one or more ASCII digits; anything else raises,
      which is `None` here. */
  function ParseInt(s: string): Option<int> {
    var t := Strip(s);
    if t != [] && (t[0] == '-' || t[0] == '+') then
      match ParseNat(t[1..])
      case None => None
      case Some(n) => Some(if t[0] == '-' then -(n as int) else n as int)
    else
      match ParseNat(t)
      case None => None
      case Some(n) => Some(n)
  }

  lemma {:induction false} DigitsValueOfNatToString(n: nat)
    ensures DigitsValue(NatToString(n)) == n
    decreases n
  {
    if n >= 10 {
      DigitsValueOfNatToString(n / 10);
      var s := NatToString(n);
      assert s[..|s| - 1] == NatToString(n / 10);
    }
  }

  /** `int(s)` of a plain digit string is its decimal value. */
  lemma ParseIntOfDigits(s: string)
    requires s != [] && AllDigits(s)
    ensures ParseInt(s) == Some(DigitsValue(s) as int)
  {
    assert !IsSpace(s[0]) && !IsSpace(s[|s| - 1]);
    StripTrimmed(s);
  }

  /** `int(str(i)) == i`. */
  lemma ParseIntOfIntToString(i: int)
    ensures ParseInt(IntToString(i)) == Some(i)
  {
    var n: nat := if i < 0 then -i else i;
    var digits := NatToString(n);
    DigitsValueOfNatToString(n);
    if i >= 0 {
      ParseIntOfDigits(digits);
    } else {
      var s := "-" + digits;
      assert IntToString(i) == s;
      assert s[|s| - 1] == digits[|digits| - 1];
      assert !IsSpace(s[0]) && !IsSpace(s[|s| - 1]);
      StripTrimmed(s);
      assert s[1..] == digits;
      assert ParseNat(s[1..]) == Some(n);
    }
  }
}

=== FILE: serper_web_search.dfy ===
/** The web search tool (tools/serper_web_search.py). The POST to Serper
    is not performed: its outcome is a parameter, and the request the tool
    would send is returned so that the endpoint choice is observable. */
module SerperWebSearch {
  import opened Wrappers
  import opened PyStrings

  const NewsEndpoint: string := "https://google.serper.dev/news"
  const SearchEndpoint: string := "https://google.serper.dev/search"
  const MaxResults: nat := 5
  const NoResultsText: string := "No results found."
  const ErrorPrefix: string := "Error performing search: "

  /** One search hit; every field is read with `item.get(...)`, so each
      may be missing. */
  datatype Item = Item(title: Option<string>, link: Option<string>, snippet: Option<string>)

  /** What the POST produced: an exception (from the request, from
      `raise_for_status` or from decoding), or the decoded body's
      `organic` and `news` entries, each possibly absent. */
  datatype SearchOutcome =
    | Raised(message: string)
    | Data(organic: Option<seq<Item>>, news: Option<seq<Item>>)

  /** The request the tool sends: endpoint, `X-API-KEY` header and `q`. */
  datatype Request = Request(endpoint: string, apiKey: string, query: string)

  /** The news endpoint when "news" occurs in the lower-cased query. */
  function Endpoint(query: string): string {
    if Contains(Lower(query), "news") then NewsEndpoint else SearchEndpoint
  }

  /** The news endpoint is chosen exactly when the lower-cased query holds
      "news" somewhere; otherwise the general search endpoint. */
  lemma EndpointChoice(query: string)
    ensures Endpoint(query) == NewsEndpoint <==> exists i :: OccursAt(Lower(query), "news", i)
    ensures Endpoint(query) != NewsEndpoint ==> Endpoint(query) == SearchEndpoint
  {
    ContainsIff(Lower(query), "news");
  }

  /** A list that Python's `or` keeps: present and non-empty. */
  predicate HasEntries(o: Option<seq<Item>>) {
    o.Some? && o.value != []
  }

  /** `data.get("organic") or data.get("news") or []`. */
  function SearchResults(organic: Option<seq<Item>>, news: Option<seq<Item>>): seq<Item> {
    if HasEntries(organic) then organic.value
    else if HasEntries(news) then news.value
    else []
  }

  /** The results are the organic list when it has entries, the news list
      only when the organic one has none, and there are results exactly
      when one of the two has entries. */
  lemma SearchResultsSpec(organic: Option<seq<Item>>, news: Option<seq<Item>>)
    ensures SearchResults(organic, news) != [] <==> HasEntries(organic) || HasEntries(news)
    ensures HasEntries(organic) ==> SearchResults(organic, news) == organic.value
    ensures !HasEntries(organic) && SearchResults(organic, news) != [] ==> SearchResults(organic, news) == news.value
  {
  }

  /** `results[:5]`: the first results, at most five of them. */
  function Top(results: seq<Item>): (r: seq<Item>)
    ensures |r| <= MaxResults
    ensures |r| == if |results| < MaxResults then |results| else MaxResults
    ensures r == results[..|r|]
  {
    if |results| <= MaxResults then results else results[..MaxResults]
  }

  /** One result block: title, snippet and source, each on its own line. */
  function FormatItem(item: Item): string {
    "Title: " + Show(item.title) + "\nSnippet: " + Show(item.snippet) + "\nSource: " + Show(item.link) + "\n"
  }

  /** The blocks of the taken results, in order. */
  function Blocks(items: seq<Item>): (r: seq<string>)
    ensures |r| == |items|
  {
    seq(|items|, i requires 0 <= i < |items| => FormatItem(items[i]))
  }

  /** The links of the taken results, in order (a missing link stays missing). */
  function Links(items: seq<Item>): (r: seq<Option<string>>)
    ensures |r| == |items|
  {
    seq(|items|, i requires 0 <= i < |items| => items[i].link)
  }

  /** `"\n".join(results) if results else "No results found."`. */
  function Reply(blocks: seq<string>): string {
    if blocks == [] then NoResultsText else Join(blocks, "\n")
  }

  /** The tool answers "No results found." exactly when it took no result;
      otherwise the answer starts with the first result's block. */
  lemma NoResultsIff(items: seq<Item>)
    ensures Reply(Blocks(items)) == NoResultsText <==> items == []
    ensures items != [] ==> HasPrefix(Reply(Blocks(items)), FormatItem(items[0]))
  {
    if items != [] {
      var blocks := Blocks(items);
      JoinStartsWithFirst(blocks, "\n");
      var r := Reply(blocks);
      assert r[0] == blocks[0][0] == 'T';
    }
  }

  class SerperSearchTool {
    const apiKey: string
    /** The links of the last search, read and cleared by the chat handlers. */
    var latestLinks: seq<Option<string>>

    constructor (apiKey: string)
      ensures this.apiKey == apiKey && latestLinks == []
    {
      this.apiKey := apiKey;
      latestLinks := [];
    }

    /** `serper_search`: forget the previous links, send the query, then
        keep the first five results' links and describe those results. */
    method Search(query: string, outcome: SearchOutcome) returns (request: Request, reply: string)
      modifies this
      ensures request == Request(Endpoint(query), apiKey, query)
      ensures outcome.Raised? ==> latestLinks == [] && reply == ErrorPrefix + outcome.message
      ensures outcome.Data? ==>
                var taken := Top(SearchResults(outcome.organic, outcome.news));
                latestLinks == Links(taken) && reply == Reply(Blocks(taken))
      ensures |latestLinks| <= MaxResults
    {
      latestLinks := [];
      var endpoint := if Contains(Lower(query), "news") then NewsEndpoint else SearchEndpoint;
      request := Request(endpoint, apiKey, query);
      match outcome
      case Raised(message) =>
        reply := ErrorPrefix + message;
      case Data(organic, news) =>
        var results: seq<string> := [];
        var searchResults := SearchResults(organic, news);
        var taken := Top(searchResults);
        for i := 0 to |taken|
          invariant results == Blocks(taken[..i])
          invariant latestLinks == Links(taken[..i])
        {
          var item := taken[i];
          results := results + [FormatItem(item)];
          latestLinks := latestLinks + [item.link];
        }
        assert taken[..|taken|] == taken;
        reply := if results != [] then Join(results, "\n") else NoResultsText;
    }
  }
}

=== FILE: slack_api.dfy ===
/** The part of the Slack platform the bot touches, reduced to values: the
    blocks of a message, one log of everything the bot sends (`say`,
    `ack`, `chat_postMessage`), the answer of `users_info`, and the mention
    text clean-up the handlers share. */
module SlackApi {
  import opened Wrappers
  import opened PyStrings

  /** A `section` block with `mrkdwn` text, or a `context` block with one
      `mrkdwn` element. */
  datatype Block = Section(text: string) | Context(text: string)

  /** One thing the bot sent: `say(text=..., blocks=...)`, `ack()` or
      `client.chat_postMessage(channel=..., text=...)`. */
  datatype Sent =
    | Say(text: string, blocks: Option<seq<Block>>)
    | Ack
    | Post(channel: string, text: string)

  /** Everything sent so far, in order. */
  class Outbox {
    var log: seq<Sent>

    constructor ()
      ensures log == []
    {
      log := [];
    }

    method Say(text: string, blocks: Option<seq<Block>>)
      modifies this
      ensures log == old(log) + [Sent.Say(text, blocks)]
    {
      log := log + [Sent.Say(text, blocks)];
    }

    method Ack()
      modifies this
      ensures log == old(log) + [Sent.Ack]
    {
      log := log + [Sent.Ack];
    }

    method Post(channel: string, text: string)
      modifies this
      ensures log == old(log) + [Sent.Post(channel, text)]
    {
      log := log + [Sent.Post(channel, text)];
    }
  }

  /** `users_info(user=...)`: it raised, or it returned a profile whose
      `real_name`, `display_name` and `name` may each be absent. */
  datatype UserLookup =
    | LookupFailed
    | Profile(realName: Option<string>, displayName: Option<string>, name: Option<string>)

  /** The name a user goes by when their profile gives none. */
  const FallbackUsername: string := "User"

  /** The lines of a sources list: one per link, in order, each drawn by
      `line`. */
  function LinkLines(links: seq<Option<string>>, line: Option<string> -> string): (r: seq<string>)
    ensures |r| == |links|
  {
    seq(|links|, i requires 0 <= i < |links| => line(links[i]))
  }

  /** The blocks of an answer: the reply as a section, then, when there
      are source lines, a context block of the header and those lines
      joined by line breaks. */
  function SourcedBlocks(reply: string, header: string, lines: seq<string>): seq<Block> {
    [Section(reply)] + (if lines == [] then [] else [Context(header + Join(lines, "\n"))])
  }

  /** Without source lines the answer is the reply alone; with them the
      context block starts with the header, and splitting what follows it
      at line breaks gives the lines back when none of them holds one. */
  lemma SourcedBlocksSpec(reply: string, header: string, lines: seq<string>)
    ensures lines == [] ==> SourcedBlocks(reply, header, lines) == [Section(reply)]
    ensures lines != [] ==>
              var b := SourcedBlocks(reply, header, lines);
              |b| == 2 && b[0] == Section(reply) && b[1].Context? && HasPrefix(b[1].text, header)
    ensures lines != [] && (forall k :: 0 <= k < |lines| ==> '\n' !in lines[k]) ==>
              var t := SourcedBlocks(reply, header, lines)[1].text;
              Split(t[|header|..], '\n') == lines
  {
    if lines != [] {
      var t := SourcedBlocks(reply, header, lines)[1].text;
      var body := Join(lines, "\n");
      assert t == header + body;
      assert t[..|header|] == header;
      assert t[|header|..] == body;
      if forall k :: 0 <= k < |lines| ==> '\n' !in lines[k] {
        assert "\n" == ['\n'];
        SplitJoin(lines, '\n');
      }
    }
  }

  /** A value Python's `or` keeps: present and non-empty. */
  predicate Truthy(o: Option<string>) {
    o.Some? && o.value != ""
  }

  /** `raw_text.split(">")[-1].strip()`: what follows the last `>` (the end
      of the `<@bot>` mention), trimmed. */
  function MentionText(rawText: string): string {
    Strip(AfterLast(rawText, '>'))
  }

  /** The cleaned text has no `>` and no surrounding whitespace, and is
      exactly what lies after the last `>` once trimmed; text without any
      `>` is only trimmed. */
  lemma MentionTextSpec(rawText: string)
    ensures '>' !in MentionText(rawText) && Trimmed(MentionText(rawText))
    ensures HasSuffix(rawText, AfterLast(rawText, '>'))
    ensures |AfterLast(rawText, '>')| < |rawText| ==> rawText[|rawText| - |AfterLast(rawText, '>')| - 1] == '>'
    ensures '>' !in rawText ==> MentionText(rawText) == Strip(rawText)
  {
    AfterLastSpec(rawText, '>');
    StripKeeps(AfterLast(rawText, '>'), '>');
  }
}

=== FILE: slack_bot_service.dfy ===
/** The mention-driven bot (services/slack_bot_service.py): an allow-list
    of channels, per-user memory, and the socket-mode handler that `stop`
    closes. The LLM's reply and the `users_info` answer are inputs; what
    the bot says goes to an `Outbox`. */
module SlackBotService {
  import opened Wrappers
  import opened ChatMemory
  import opened SlackApi

  /** What the bot needs from `LLMService`: its system message. The call
      to the model itself is replaced by the reply passed in. */
  datatype LlmService = LlmService(model: string, systemMessage: string)

  const DefaultMaxMemory: nat := 10

  /** An `app_mention` event: `channel`, `user` and the optional `text`. */
  datatype MentionEvent = MentionEvent(channel: string, user: string, text: Option<string>)

  /** `real_name or display_name or name or "User"`, and `"User"` when the
      lookup raised. */
  function Username(lookup: UserLookup): string {
    match lookup
    case LookupFailed => FallbackUsername
    case Profile(realName, displayName, name) =>
      if Truthy(realName) then realName.value
      else if Truthy(displayName) then displayName.value
      else if Truthy(name) then name.value
      else FallbackUsername
  }

  /** The name is never empty: it is the first non-empty profile field in
      the order real name, display name, name, and "User" only when all
      three are unusable or the lookup failed. */
  lemma UsernameSpec(lookup: UserLookup)
    ensures Username(lookup) != ""
    ensures lookup.Profile? && Truthy(lookup.realName) ==> Username(lookup) == lookup.realName.value
    ensures lookup.Profile? && !Truthy(lookup.realName) && Truthy(lookup.displayName) ==>
              Username(lookup) == lookup.displayName.value
    ensures lookup.Profile? && !Truthy(lookup.realName) && !Truthy(lookup.displayName) && Truthy(lookup.name) ==>
              Username(lookup) == lookup.name.value
    ensures Username(lookup) == FallbackUsername <==>
              lookup.LookupFailed?
              || (!Truthy(lookup.realName) && !Truthy(lookup.displayName) && !Truthy(lookup.name))
              || (Truthy(lookup.realName) && lookup.realName.value == FallbackUsername)
              || (!Truthy(lookup.realName) && Truthy(lookup.displayName) && lookup.displayName.value == FallbackUsername)
              || (!Truthy(lookup.realName) && !Truthy(lookup.displayName) && Truthy(lookup.name)
                  && lookup.name.value == FallbackUsername)
  {
  }

  /** The message stored for the user, naming them for the model. */
  function ContextMessage(username: string, userText: string): string {
    "Context: I am talking to " + username + ". My message: " + userText
  }

  /** The user turn `handle_mention` stores for an event. */
  function UserMessage(event: MentionEvent, lookup: UserLookup): Msg {
    Msg(UserRole, ContextMessage(Username(lookup), MentionText(event.text.GetOr(""))))
  }

  /** A mention is answered unless an allow-list is set and lacks the channel. */
  predicate Allowed(allowed: Option<set<string>>, channel: string) {
    allowed.None? || channel in allowed.value
  }

  /** The socket-mode connection `run_sync` opens and `stop` closes. */
  class SocketModeHandler {
    var open: bool

    constructor ()
      ensures open
    {
      open := true;
    }

    method Close()
      modifies this
      ensures !open
    {
      open := false;
    }
  }

  class SlackBotService {
    const llm: LlmService
    const memory: ChatMemoryService
    const allowedChannelIds: Option<set<string>>
    const botToken: string
    const appToken: string
    var handler: SocketModeHandler?

    ghost predicate Valid()
      reads this, memory
    {
      memory.Valid()
    }

    /** `__init__`: fresh memory capped at `maxMemory` messages per user,
        and no connection yet. */
    constructor (llm: LlmService, botToken: string, appToken: string, allowedChannelIds: Option<set<string>>, maxMemory: nat)
      ensures Valid() && fresh(memory)
      ensures this.llm == llm && this.allowedChannelIds == allowedChannelIds
      ensures this.botToken == botToken && this.appToken == appToken
      ensures memory.maxHistorySize == maxMemory && memory.userHistories == map[]
      ensures handler == null
    {
      this.llm := llm;
      memory := new ChatMemoryService(maxMemory);
      this.allowedChannelIds := allowedChannelIds;
      this.botToken := botToken;
      this.appToken := appToken;
      handler := null;
    }

    /** The first step of `run_sync`: open the socket-mode connection. */
    method Connect()
      modifies this
      ensures handler != null && fresh(handler) && handler.open
    {
      handler := new SocketModeHandler();
    }

    /** `handle_mention`. Returns the messages handed to the model, or
        `None` when the channel is not allowed and nothing happens. `reply`
        is what `generate_reply` returned, or the message of what it raised. */
    method HandleMention(event: MentionEvent, lookup: UserLookup, reply: Result<string, string>, outbox: Outbox)
      returns (llmInput: Option<seq<Msg>>)
      requires Valid()
      modifies memory, outbox
      ensures Valid()
      ensures !Allowed(allowedChannelIds, event.channel) ==>
                llmInput.None? && memory.userHistories == old(memory.userHistories) && outbox.log == old(outbox.log)
      ensures Allowed(allowedChannelIds, event.channel) ==>
                llmInput == Some([Msg(SystemRole, llm.systemMessage)]
                                 + LastN(old(memory.StoredFor(event.user)) + [UserMessage(event, lookup)], memory.maxHistorySize))
      ensures Allowed(allowedChannelIds, event.channel) && reply.Success? ==>
                memory.userHistories == old(memory.userHistories)[event.user :=
                  LastN(LastN(old(memory.StoredFor(event.user)) + [UserMessage(event, lookup)], memory.maxHistorySize)
                        + [Msg(AssistantRole, reply.value)], memory.maxHistorySize)]
                && outbox.log == old(outbox.log) + [Sent.Say(reply.value, None)]
      ensures Allowed(allowedChannelIds, event.channel) && reply.Failure? ==>
                memory.userHistories == old(memory.userHistories)[event.user :=
                  LastN(old(memory.StoredFor(event.user)) + [UserMessage(event, lookup)], memory.maxHistorySize)]
                && outbox.log == old(outbox.log)
    {
      if allowedChannelIds.Some? && event.channel !in allowedChannelIds.value {
        return None;
      }
      var messages := Answer(event, lookup, reply, outbox);
      llmInput := Some(messages);
    }

    /** The body of `handle_mention` past the allow-list check. When the
        model call raises, the user's turn stays stored unanswered and
        nothing is said. */
    method Answer(event: MentionEvent, lookup: UserLookup, reply: Result<string, string>, outbox: Outbox)
      returns (messages: seq<Msg>)
      requires Valid()
      modifies memory, outbox
      ensures Valid()
      ensures messages == [Msg(SystemRole, llm.systemMessage)]
                          + LastN(old(memory.StoredFor(event.user)) + [UserMessage(event, lookup)], memory.maxHistorySize)
      ensures reply.Success? ==>
                memory.userHistories == old(memory.userHistories)[event.user :=
                  LastN(LastN(old(memory.StoredFor(event.user)) + [UserMessage(event, lookup)], memory.maxHistorySize)
                        + [Msg(AssistantRole, reply.value)], memory.maxHistorySize)]
                && outbox.log == old(outbox.log) + [Sent.Say(reply.value, None)]
      ensures reply.Failure? ==>
                memory.userHistories == old(memory.userHistories)[event.user :=
                  LastN(old(memory.StoredFor(event.user)) + [UserMessage(event, lookup)], memory.maxHistorySize)]
                && outbox.log == old(outbox.log)
    {
      var username := Username(lookup);
      var rawText := event.text.GetOr("");
      var userText := MentionText(rawText);
      messages := Exchange(event.user, ContextMessage(username, userText), reply);
      if reply.Success? {
        ghost var after := memory.userHistories;
        outbox.Say(reply.value, None);
        assert memory.userHistories == after;
      }
    }

    /** The memory traffic of one answered mention: store the user's turn,
        read the history the model is given, and store the reply if the
        model gave one. */
    method Exchange(userId: string, userText: string, reply: Result<string, string>) returns (messages: seq<Msg>)
      requires Valid()
      modifies memory
      ensures Valid()
      ensures messages == [Msg(SystemRole, llm.systemMessage)]
                          + LastN(old(memory.StoredFor(userId)) + [Msg(UserRole, userText)], memory.maxHistorySize)
      ensures reply.Success? ==>
                memory.userHistories == old(memory.userHistories)[userId :=
                  LastN(LastN(old(memory.StoredFor(userId)) + [Msg(UserRole, userText)], memory.maxHistorySize)
                        + [Msg(AssistantRole, reply.value)], memory.maxHistorySize)]
      ensures reply.Failure? ==>
                memory.userHistories == old(memory.userHistories)[userId :=
                  LastN(old(memory.StoredFor(userId)) + [Msg(UserRole, userText)], memory.maxHistorySize)]
    {
      memory.AddMessage(userId, UserRole, userText);
      messages := memory.GetHistory(userId, llm.systemMessage);
      if reply.Success? {
        memory.AddMessage(userId, AssistantRole, reply.value);
      }
    }

    /** `stop`: close and forget the connection; nothing to do without one. */
    method Stop()
      modifies this, handler
      ensures handler == null
      ensures old(handler) != null ==> !old(handler).open
    {
      if handler != null {
        handler.Close();
        handler := null;
      }
    }
  }

  /** A mention's exchange, as the memory keeps it: the user's context
      message then the reply, both trimmed to the newest `cap` together
      with what the user said before. */
  lemma MentionExchangeIsWindow(prior: seq<Msg>, userMsg: Msg, replyMsg: Msg, cap: nat)
    ensures LastN(LastN(prior + [userMsg], cap) + [replyMsg], cap) == LastN(prior + [userMsg, replyMsg], cap)
    ensures |LastN(prior + [userMsg, replyMsg], cap)| <= cap
    ensures cap >= 2 ==> LastN(prior + [userMsg, replyMsg], cap)[|LastN(prior + [userMsg, replyMsg], cap)| - 2..]
                         == [userMsg, replyMsg]
  {
    LastNAppend(prior + [userMsg], replyMsg, cap);
    assert prior + [userMsg] + [replyMsg] == prior + [userMsg, replyMsg];
  }
}

=== FILE: slash_clear_memory.dfy ===
/** The `/clear_memory` command (handlers/slash_clear_memory.py): forget
    the model's history for the channel the command came from. */
module SlashClearMemory {
  import opened SlackApi
  import opened AgentLlm

  const ClearedText: string := "AI memory for this conversation has been cleared."

  class SlashClearMemoryHandler {
    const llmService: AgentLlmService

    constructor (llmService: AgentLlmService)
      ensures this.llmService == llmService
    {
      this.llmService := llmService;
    }

    /** The registered command: acknowledge first, then clear. */
    method ClearUserMemoryCommand(channelId: string, outbox: Outbox)
      modifies llmService, outbox
      ensures llmService.historyDb == old(llmService.historyDb) - {channelId}
      ensures outbox.log == old(outbox.log) + [Sent.Ack, Sent.Post(channelId, ClearedText)]
    {
      outbox.Ack();
      ClearUserMemory(channelId, outbox);
    }

    /** `_clear_user_memory`: drop the channel's history if there is one,
        then confirm in the channel either way. Other channels keep
        theirs. */
    method ClearUserMemory(channelId: string, outbox: Outbox)
      modifies llmService, outbox
      ensures llmService.historyDb == old(llmService.historyDb) - {channelId}
      ensures channelId !in llmService.historyDb
      ensures forall c :: c in old(llmService.historyDb) && c != channelId ==>
                c in llmService.historyDb && llmService.historyDb[c] == old(llmService.historyDb)[c]
      ensures outbox.log == old(outbox.log) + [Sent.Post(channelId, ClearedText)]
    {
      if channelId in llmService.historyDb {
        llmService.historyDb := llmService.historyDb - {channelId};
      }
      outbox.Post(channelId, ClearedText);
    }
  }
}

=== FILE: wrappers.dfy ===
/** Failure-compatible wrappers used across the model: Python's `None`
    becomes `None`, a raised exception becomes `Failure`. */
module Wrappers {

  datatype Option<+T> = None | Some(value: T) {
    predicate IsFailure() { None? }

    function PropagateFailure<U>(): Option<U>
      requires None?
    {
      None
    }

    function Extract(): T
      requires Some?
    {
      value
    }

    function GetOr(default: T): T {
      match this
      case Some(v) => v
      case None => default
    }
  }

  datatype Result<+R, +E> = Success(value: R) | Failure(error: E) {
    predicate IsFailure() { Failure? }

    function PropagateFailure<U>(): Result<U, E>
      requires Failure?
    {
      Failure(error)
    }

    function Extract(): R
      requires Success?
    {
      value
    }
  }
}
